=== FILE: README.md ===
# A verified model of the chat client's screen logic

The repository is a small React Native chat client. It sits on a hosted
backend: an authentication service, a document store, object storage and a
user search index. This project models the sequential logic of four
screens. It treats the backend as a value: the signed-in account,
`users/{uid}`, `users/{owner}/contacts/{id}` contact summaries and
`chats/{roomId}/messages`.

- **Chat** (`chat.dfy`):
  - the room id `[me, contact].sort().join('_')`;
  - the check mark under each message;
  - `sendMessage`: one appended message and two last-message summaries, behind a blank-text guard and the send button's in-flight guard;
  - the read-receipt batch of `handleViewableItemsChanged`.
- **Home** (`home.dfy`):
  - the snapshot projection `{uid: doc.id, ...data}`;
  - the most-recent-first sort, where a missing timestamp counts as the epoch;
  - the case-insensitive name filter;
  - the tick and timestamp of each row.
- **Profile editor** (`profile_edit.dfy`): `updateProfileInfo`. It decides whether to upload a photo, updates the account and the user document, then runs the nested fan-out loop that rewrites every copy of the profile in every user's contacts.
- **Contact search** (`search_add_contacts.dfy`):
  - the search guard;
  - the single "already a contact" flag over all hits;
  - hiding the signed-in user from the results;
  - the two sequential `setDoc` writes of `addContact`;
  - the add button's gate.

`js.dfy` models the JavaScript string operations the screens rely on.
Strings are UTF-16 code-unit sequences. `trim` uses the ECMAScript
white-space set, `includes` is modelled, and `<` is code-unit order, which is
the order the default `sort` uses.

`model.dfy` defines the documents, the backend value and each document write
as a function on it.

`store.dfy` is the backend as a mutable `Store` object. Each SDK call is a
method proved against the matching `model.dfy` function.

`flow.dfy` states properties that cross screens:
- what the home list and the chat show after a send and after the other party's receipts;
- every write keeps each contact document's `uid` field equal to its document id (`KeyedByUid`). That invariant is what makes the Home projection carry the document id.

Remote failures are explicit inputs:
- a set of failing writes for a send or a read receipt;
- the number of the failing remote call for a profile save, counting the calls in the order they are issued;
- one flag per write for an add.

A failure the client causes itself follows from the state. For example,
`updateDoc` on a missing document fails.

Details of the code that the model keeps as written:
- The code writes the last-message summaries with `updateDoc`, not as upserts. `updateDoc` never creates a document: a send to a contact whose summary document is missing leaves that summary absent and reports an error (`Chat.SendFailed`).
- In `{uid: doc.id, ...doc.data()}` the document's own `uid` field is spread last, so it wins over the document id. The two agree only while `KeyedByUid` holds, and every write in the model keeps it.
- `addContact` sets `isAddLoading` to true and never resets it when a write fails or no user is signed in. The model keeps this as written.
- The profile fan-out reaches only the contacts of users that have a `users/{uid}` document, because it lists that collection first.

## Model

| member | source | states |
|---|---|---|
| Js.Trim | screens/Chat.tsx:99 | the trimmed text is a slice of the input with only white space cut from both ends, and it neither starts nor ends with white space |
| Js.TrimEmptyIffBlank | screens/Chat.tsx:99 | `!text.trim()` holds exactly when the text is all white space |
| Js.Lower | screens/Home.tsx:45 | lowering keeps the length and maps each code unit through ASCII upper-to-lower case |
| Js.LowerEqualIffSameIgnoringCase | screens/Home.tsx:45 | two strings lower to the same string exactly when they differ only in the case of ASCII letters |
| Js.LowerHasNoUpper | screens/Home.tsx:45 | a lowered string holds no capital letter |
| Js.LowerIdempotent | screens/Home.tsx:45 | lowering a lowered string changes nothing |
| Js.LowerSameIgnoringCase | screens/Home.tsx:45 | a string and its lowered form differ only in ASCII case |
| Js.IncludesIffOccurs | screens/Home.tsx:45 | `includes` is true exactly when the term occurs at some position of the string |
| Js.IncludesEmpty | screens/Home.tsx:44-46 | every string includes the empty term |
| Js.LessIrreflexive | screens/Chat.tsx:34 | no id sorts before itself |
| Js.LessAsymmetric | screens/Chat.tsx:34 | two ids never each sort before the other |
| Js.LessTotal | screens/Chat.tsx:34 | of two different ids one sorts first |
| Js.LessTransitive | screens/Chat.tsx:34 | the string order used by `sort` is transitive |
| Model.Apply | screens/Chat.tsx:116-130 | a partial update keeps `uid` and `email` and changes exactly the fields it names: last-message fields, the read flag, or name and photo |
| Model.AddMessage | screens/Chat.tsx:107-114 | `addDoc` appends one message to the room and leaves every other room and collection unchanged |
| Model.UpdateContact | screens/Chat.tsx:116-122 | `updateDoc` of an existing contact document rewrites that document only |
| Model.SetContact | screens/SearchAddContacts.tsx:75-84 | `setDoc` creates or wholly replaces one contact document and leaves the others unchanged |
| Model.UpdateUser | screens/ProfileEdit.tsx:63-66 | the user document gets the new name and photo; other user documents are unchanged |
| Model.UpdateAccount | screens/ProfileEdit.tsx:58-61 | the account gets the new display name and photo; no document changes |
| Model.MarkMessagesRead | screens/Chat.tsx:78-79 | a committed batch sets `read` on exactly the listed messages of the room; nothing else changes |
| Model.ApplyIdempotent | screens/Chat.tsx:80 | writing the same partial update twice equals writing it once |
| Model.UpdateContactKeepsKeyedByUid | screens/Home.tsx:28 | partial updates keep every contact document's `uid` equal to its id |
| Backend.Store.AddDoc | screens/Chat.tsx:108-114 | succeeds unless rejected, and then the state is `AddMessage` of the old state; otherwise unchanged |
| Backend.Store.UpdateDoc | screens/Chat.tsx:117-122 | succeeds exactly when it is not rejected and the document exists, and then the state is `UpdateContact` of the old state; otherwise unchanged |
| Backend.Store.SetDoc | screens/SearchAddContacts.tsx:77-84 | succeeds unless rejected, and then the state is `SetContact` of the old state; otherwise unchanged |
| Backend.Store.UpdateUserDoc | screens/ProfileEdit.tsx:63-66 | succeeds exactly when it is not rejected and the user document exists, and then the state is `UpdateUser` of the old state |
| Backend.Store.UpdateProfile | screens/ProfileEdit.tsx:58-61 | succeeds unless rejected, and then the state is `UpdateAccount` of the old state |
| Backend.Store.CommitReadBatch | screens/Chat.tsx:85-87 | the batch commits exactly when it is not rejected and every message in it exists; otherwise nothing of it is applied |
| Chat.RoomId | screens/Chat.tsx:34 | the room id is the smaller id, `_`, then the larger, in JS string order |
| Chat.RoomIdSymmetric | screens/Chat.tsx:103 | both participants compute the same room id |
| Chat.RoomIdOrdered | screens/Chat.tsx:34 | the room id is `lo + "_" + hi` with `{lo, hi}` the two ids and `lo` not after `hi` |
| Chat.RoomIdDeterminesPair | screens/Chat.tsx:34 | for ids without `_`, equal room ids mean the same pair of users |
| Chat.RoomIdExample | screens/Chat.tsx:34 | "alice" and "bob" share the room "alice_bob" in either order |
| Chat.MessageTick | screens/Chat.tsx:179-189 | a message has a tick exactly when the viewer sent it, blue exactly when it is also read |
| Chat.WriteSummaries | screens/Chat.tsx:116-130 | the patch lands on each of the two summary documents exactly when that write is not rejected; nothing else changes |
| Chat.Sent | screens/Chat.tsx:97-134 | blank text writes nothing; otherwise the room gains exactly the message (me, contact, trimmed text, now, unread) unless that write fails, each summary that is written gets the trimmed text, time, `read=false` and sender `me` and keeps its other fields, and every other document is unchanged |
| Chat.QualifyingIds | screens/Chat.tsx:76-80 | an id is in the batch exactly when some visible item with that id is unread and from the other party |
| Chat.MarkedRead | screens/Chat.tsx:63-91 | the batch flips exactly the qualifying messages when it commits; both summaries get `lastMessageRead=true` when at least one message qualifies and that write lands; nothing else changes |
| Chat.MarkedReadFlipsExactly | screens/Chat.tsx:76-80 | with a current snapshot, exactly the visible unread messages of the other party become read and every other message keeps every field |
| Chat.NothingDueNothingWritten | screens/Chat.tsx:76-85 | when nothing visible qualifies, the backend is unchanged and no summary is written |
| Chat.MarkedReadIdempotent | screens/Chat.tsx:76-81 | running the receipts twice over the same items equals running them once |
| Chat.MarkedReadMessagesSettle | screens/Chat.tsx:76-87 | a second pass of the receipts over the same items leaves every room's messages as the first pass left them |
| Chat.MarkedReadContactsSettle | screens/Chat.tsx:65-74 | a second pass of the receipts leaves every contact document as the first pass left it |
| Chat.Refreshed | screens/Chat.tsx:39-56 | the items as the next snapshot delivers them match the current documents |
| Chat.ReceiptsSettle | screens/Chat.tsx:76-85 | after committed receipts, the next visibility event over the same messages, as refreshed, writes nothing |
| Chat.ChatScreen.constructor | screens/Chat.tsx:21-24 | the composer starts empty with no send in flight |
| Chat.ChatScreen.ChangeText | screens/Chat.tsx:216 | typing replaces the composer text only |
| Chat.ChatScreen.SendMessage | screens/Chat.tsx:97-134 | blank text changes nothing; otherwise the backend becomes `Sent`, the composer is cleared before the await, `sendingMessage` is set and the send joins those in flight |
| Chat.ChatScreen.SendSettled | screens/Chat.tsx:134-141 | any one in-flight send settles, in any order: it leaves the in-flight list, adds exactly one error alert if a write failed, with no rollback, and clears `sendingMessage` even if other sends are still in flight; alerts shown plus failures still in flight stay constant |
| Chat.ChatScreen.PressSend | screens/Chat.tsx:223 | while `sendingMessage` is set, the button changes nothing: backend, composer, flag and in-flight list stay as they were. Otherwise it sends, with the same outcome as `SendMessage`: the backend becomes `Sent`. A blank text keeps the composer, the flag and the in-flight list. Any other text clears the composer and sets `sendingMessage`, and that send's failure outcome `SendFailed` joins the in-flight list. No alert is shown before the send settles |
| Chat.ChatScreen.SubmitEditing | screens/Chat.tsx:214 | the keyboard's submit sends without checking `sendingMessage`, with the whole outcome of `SendMessage` (backend `Sent`, composer cleared, flag set, `SendFailed` appended to the sends in flight). So a second send can be in flight beside the first |
| Chat.IssueSend | screens/Chat.tsx:107-134 | the three writes leave the backend as `Sent` and report failure exactly as `SendFailed` |
| Chat.MarkAsRead | screens/Chat.tsx:65-74 | `markAsRead()` leaves both summaries marked read, however many times it has run before in the same scan |
| Chat.ReadSummariesIdempotent | screens/Chat.tsx:80 | marking the summaries read again rewrites the values already there |
| Chat.HandleViewableItemsChanged | screens/Chat.tsx:63-91 | the scan over the visible items and the batch commit leave the backend as `MarkedRead` |
| Home.LoadContacts | screens/Home.tsx:28 | the projection keeps the snapshot's length and maps each document to its data |
| Home.ProjectedUidIsDocId | screens/Home.tsx:28 | while `KeyedByUid` holds, each projected contact's `uid` is its document id |
| Home.Insert | screens/Home.tsx:29-33 | inserting into a most-recent-first list keeps it sorted and adds exactly one occurrence of the contact |
| Home.SortByRecency | screens/Home.tsx:29-33 | the sorted list is most recent first and a permutation of the input |
| Home.MissingTimestampsLast | screens/Home.tsx:30-31 | a contact without a timestamp comes after every contact with a timestamp past the epoch |
| Home.NameMatchesIsSubstring | screens/Home.tsx:45 | a contact matches exactly when the lowered term occurs in its lowered name |
| Home.FilterByName | screens/Home.tsx:44-46 | the filter keeps every matching contact as often as it occurs and drops every other one |
| Home.FilterKeepsOrder | screens/Home.tsx:44-46 | filtering a most-recent-first list leaves it most recent first |
| Home.NameMatchesIgnoresCase | screens/Home.tsx:45 | names that differ only in ASCII case, searched with terms that differ only in ASCII case, match alike |
| Home.FilterIgnoresTermCase | screens/Home.tsx:44-46 | a search term and any of its case variants select the same contacts in the same order |
| Home.EmptyTermKeepsAll | screens/Home.tsx:44-46 | an empty search term keeps the whole list, in order |
| Home.ShownContacts | screens/Home.tsx:28-46 | the shown list is most recent first and holds exactly the matching contacts of the snapshot with their multiplicities |
| Home.SummaryTick | screens/Home.tsx:123-154 | a row has a tick exactly when the signed-in user sent the last message, blue exactly when that message is also read |
| Home.RowOf | screens/Home.tsx:120-168 | a row shows a time exactly when the summary has a timestamp, with the tick of `SummaryTick` |
| ProfileEdit.SavedPhoto | screens/ProfileEdit.tsx:47-55 | the download URL is saved exactly when a photo is set and differs from the current one; otherwise the local photo value is saved |
| ProfileEdit.Renamed | screens/ProfileEdit.tsx:70-79 | every copy of the profile gets the new name and photo and keeps its other fields; every other document is unchanged |
| ProfileEdit.NoCopiesNothingRenamed | screens/ProfileEdit.tsx:70-81 | with no matching record, the fan-out writes nothing |
| ProfileEdit.RenamedIdempotent | screens/ProfileEdit.tsx:77 | saving the same profile twice equals saving it once |
| ProfileEdit.RenamedKeepsKeyedByUid | screens/ProfileEdit.tsx:77 | the fan-out keeps every `uid` field equal to its document id |
| ProfileEdit.ProfileSaved | screens/ProfileEdit.tsx:58-79 | a completed save updates the account, the user's document and every copy, and nothing else |
| ProfileEdit.ProfileEditScreen.constructor | screens/ProfileEdit.tsx:17-20 | the editor starts with the given name and photo, not saving |
| ProfileEdit.ProfileEditScreen.UpdateProfileInfo | screens/ProfileEdit.tsx:43-87 | the calls run in order and the first failure stops the save: the account changes only if the upload, when needed, succeeded; the user document only if the account update succeeded and the document exists; no copy unless the `users` listing succeeded. After the listing, the contacts are the state after the account and user updates with exactly a written set of copies renamed (`RenamedAt`). That set holds only copies of the profile and grows by at most one per fan-out call; a failed save issued at least one call more than it wrote. A successful save issued exactly `n + 3` calls plus one contact query per user document and one update per copy, so a failure at any of those calls is a failed save. A failed save stopped at its last call (the failing one), or at the `users` listing when the user document is missing. The save succeeds exactly when all that held and no issued call failed, and then the backend is `ProfileSaved` with the photo `SavedPhoto` chooses; exactly one success or error alert; `updateLoading` ends false |
| ProfileEdit.Copies | screens/ProfileEdit.tsx:68-73 | the fan-out's targets are exactly the contact documents with `uid == me` under an owner listed in `users` |
| ProfileEdit.RenamedAt | screens/ProfileEdit.tsx:75-78 | writing the profile into some documents changes only those, and keeps every key and `uid` |
| ProfileEdit.RenamedAtStep | screens/ProfileEdit.tsx:77 | one more successful `updateDoc` adds its document to the written set |
| ProfileEdit.RenamedAtAll | screens/ProfileEdit.tsx:70-79 | writing every copy is the whole fan-out |
| ProfileEdit.RenamedAtPartly | screens/ProfileEdit.tsx:82-84 | stopping after some copies leaves each document either unchanged or renamed |
| ProfileEdit.FanOut | screens/ProfileEdit.tsx:68-79 | the nested loop succeeds exactly when none of the calls it issues fails, and then every copy is renamed; a failure is always its last call. On every path the backend is the old one with exactly a set of copies renamed (`RenamedAt`); that set grows by at most one per call, and by strictly fewer than the calls on failure; a failure at the first query writes nothing. On success it issued exactly one contact query per user document and one update per copy |
| ProfileEdit.RenameOwnerCopies | screens/ProfileEdit.tsx:70-78 | one pass of the outer loop over one owner keeps the fan-out's invariant and removes that owner from those still to visit |
| ProfileEdit.OwnersVisited | screens/ProfileEdit.tsx:68-79 | when the outer loop stops, the fan-out's outcome follows: every copy renamed and one query per user plus one update per copy on success, each document unchanged or renamed otherwise |
| ProfileEdit.QueryFindsCopies | screens/ProfileEdit.tsx:71-73 | the contact query of one owner, mid fan-out, returns exactly that owner's copies of the profile |
| ProfileEdit.RenameCopy | screens/ProfileEdit.tsx:76-77 | one `updateDoc` of a copy succeeds unless rejected and adds that copy to the written set |
| ProfileEdit.RenameCopiesIn | screens/ProfileEdit.tsx:71-78 | the inner loop writes only copies of the profile, all of the owner's copies when none of its calls fails, and a failure is always its last call; it writes at most one copy per call, and fewer copies than calls on failure; on success it issued exactly one update per copy it wrote |
| ProfileEdit.RenameNextCopy | screens/ProfileEdit.tsx:75-77 | one pass of the inner loop keeps that loop's invariant, and removes the copy from those still to write exactly when its `updateDoc` succeeds |
| ProfileEdit.QueryCopies | screens/ProfileEdit.tsx:71-73 | the contact query of one owner, run mid fan-out, returns exactly that owner's copies of the profile |
| ProfileEdit.UploadCalls | screens/ProfileEdit.tsx:48-54 | the photo step issues one remote call exactly when a new photo is uploaded, none otherwise |
| ProfileEdit.NoFailureStep | screens/ProfileEdit.tsx:58-77 | a run of calls without the failure extends by one call exactly when that call is not the failing one |
| ProfileEdit.NoFailureSplit | screens/ProfileEdit.tsx:58-77 | a run of calls holds no failure exactly when both of its parts hold none |
| ProfileEdit.RenamedAtNothing | screens/ProfileEdit.tsx:68-73 | writing no copy leaves the backend unchanged |
| ProfileEdit.SaveOwnProfile | screens/ProfileEdit.tsx:47-68 | the stages before the fan-out run in order: upload when needed, account, user document, `users` listing. They succeed exactly when the user document exists and none of those calls fails, and then `n + 3` calls were issued and the photo is the one `SavedPhoto` chooses. A failure stops at the failing call, or at the listing when the user document is missing. The backend is the account update, then the user update, as far as those stages got |
| SearchAddContacts.SomeHitHas | screens/SearchAddContacts.tsx:56 | `users.some(u => u.uid === uid)` is true exactly when some hit has that uid |
| SearchAddContacts.AnyHitIsContact | screens/SearchAddContacts.tsx:56 | the flag is true exactly when some existing contact's uid equals some hit's uid |
| SearchAddContacts.OneKnownHitFlagsAll | screens/SearchAddContacts.tsx:56 | the flag is one flag for the result set: adding hits never clears it |
| SearchAddContacts.ShownHits | screens/SearchAddContacts.tsx:129-130 | the signed-in user is never shown, and every other hit is shown as often as it was returned |
| SearchAddContacts.ShownHitsWithoutSelf | screens/SearchAddContacts.tsx:129-130 | without the signed-in user among the hits, all hits are shown in order |
| SearchAddContacts.ForwardRecord | screens/SearchAddContacts.tsx:77-84 | my record of the contact: its uid, email and name, photo or `''`, empty last message and no timestamp |
| SearchAddContacts.NameOrUnknown | screens/SearchAddContacts.tsx:91 | the display name when it is non-empty, otherwise "Unknown" |
| SearchAddContacts.ReverseRecord | screens/SearchAddContacts.tsx:87-95 | the contact's record of me: my uid and email, display name or "Unknown", photo or `''`, empty summary |
| SearchAddContacts.ContactAdded | screens/SearchAddContacts.tsx:64-102 | no user or a failed first write changes nothing; no write touches the account, users or chats |
| SearchAddContacts.AddedPair | screens/SearchAddContacts.tsx:75-95 | a completed add writes exactly the two records, pointing at each other, and leaves every other document unchanged |
| SearchAddContacts.ForwardOnly | screens/SearchAddContacts.tsx:88 | when the reverse write fails, only the forward record is written |
| SearchAddContacts.AddIdempotent | screens/SearchAddContacts.tsx:77-95 | adding the same user again changes nothing |
| SearchAddContacts.AddKeepsKeyedByUid | screens/SearchAddContacts.tsx:75-95 | each record is stored under its own uid, so an add keeps `KeyedByUid` |
| SearchAddContacts.AddedThenAlreadyContact | screens/SearchAddContacts.tsx:98 | once the forward record is written, the next contacts snapshot flags the same hits as already added |
| SearchAddContacts.SearchAddContactsScreen.constructor | screens/SearchAddContacts.tsx:17-23 | the screen starts with no contacts, no results and every flag false |
| SearchAddContacts.SearchAddContactsScreen.ContactsChanged | screens/SearchAddContacts.tsx:31-34 | the contacts listener replaces the contact list with the snapshot's projection |
| SearchAddContacts.SearchAddContactsScreen.ChangeSearchName | screens/SearchAddContacts.tsx:118 | typing replaces the search name only |
| SearchAddContacts.SearchAddContactsScreen.HandleSearchUsers | screens/SearchAddContacts.tsx:40-62 | no user or an empty name changes nothing; a failed request only clears `areResults`; otherwise the hits, the flag `AnyHitIsContact` and `areResults` are set |
| SearchAddContacts.SearchAddContactsScreen.AddContact | screens/SearchAddContacts.tsx:64-102 | the backend becomes `ContactAdded`; on success `isAddLoading` is cleared and `alreadyContact` set; otherwise exactly one error alert and `isAddLoading` stays set |
| SearchAddContacts.SearchAddContactsScreen.PressAdd | screens/SearchAddContacts.tsx:142-146 | with the flag set, the button writes nothing, shows one info alert and leaves `isAddLoading` and the flag as they were. Otherwise it adds, with the whole outcome of `AddContact`: the backend becomes `ContactAdded`. A completed add clears `isAddLoading`, sets the flag and shows no alert. A failed add shows exactly one error alert and leaves `isAddLoading` set. In both cases the contacts, the search name, the hits and `areResults` are unchanged |
| Flow.SendShowsGrayTick | screens/Home.tsx:123-154 | after a send, the sender's row shows a gray tick with the trimmed text and the receiver's row shows none |
| Flow.ReceiptTurnsRowBlue | screens/Home.tsx:123-139 | the receiver's receipts turn the sender's row tick blue |
| Flow.SentMessageTurnsBlue | screens/Chat.tsx:179-189 | a sent message shows gray to its sender, then blue once the receiver has seen it and the batch commits |
| Flow.SentKeepsKeyedByUid | screens/Chat.tsx:116-130 | a send keeps `KeyedByUid` |
| Flow.MarkedReadKeepsKeyedByUid | screens/Chat.tsx:66-72 | read receipts keep `KeyedByUid` |
| Flow.ProfileSavedKeepsKeyedByUid | screens/ProfileEdit.tsx:77 | a profile save keeps `KeyedByUid` |

## Left out

- Snapshot listeners (`onSnapshot`, unsubscribe) and the `loading`/`chatLoading` flags. A listener callback is the method `ContactsChanged` or the function `Refreshed`. When it fires is not modelled.
- `Promise.all` in `sendMessage` and `markAsRead`. The writes are applied in issue order and each fails on its own. Interleavings with other clients are not modelled.
- `serverTimestamp()` and `Date`. The server time is the `now` parameter and timestamps are natural numbers. A missing timestamp counts as 0.
- Message document ids. The store generates them. Here a message's id is its position in the room, and the `orderBy('timestamp', 'desc')` display order is not modelled.
- `toLocaleString('es-ES', …)`. A row carries the timestamp itself.
- `Js.Lower`: only ASCII letters are lowered, not full Unicode `toLowerCase`.
- The render-local `let userId` and `chatId` of the chat screen. The contact is a parameter, the viewer is the signed-in account, and the room id is recomputed from the two.
- The photo upload (`fetch`, `blob`, `uploadBytes`, `getDownloadURL`). It counts as one remote call, and the download URL is the `uploadedURL` parameter.
- The search index request. Its answer is the `response` parameter.
- `Chat.ChatScreen.SendMessage` requires a signed-in user. In the source a blank text returns first (screens/Chat.tsx:99). Otherwise `sendingMessage` is set (:100), and then the unguarded `auth.currentUser.uid` (:102) throws outside the `try` that starts at :105. Nothing is written, no alert is shown and the send button stays locked. That signed-out path is not modelled.
- `ProfileEdit.ProfileEditScreen.UpdateProfileInfo` requires a signed-in user. In the source `updateLoading` is set (screens/ProfileEdit.tsx:44), and then the unguarded `user.uid` (:46) throws before the `try`. Nothing is written and `updateLoading` stays true. That signed-out path is not modelled.
- `Chat.HandleViewableItemsChanged` takes the viewer from the signed-in account. The source never reads `auth.currentUser` there. It uses the `userId` its closure captured (screens/Chat.tsx:26, 33, 63, 77), which the screen's effect sets to the signed-in uid. A callback that runs while that `userId` is still empty is not modelled.
- `Chat.HandleViewableItemsChanged`: the logged commit error and the unawaited `markAsRead` promises produce no alert, so the method has no alert output.
- `Home.SortByRecency`: the order of contacts with equal timestamps is not stated.
- The "Sin resultados" / "Contactos en la aplicación" captions (screens/SearchAddContacts.tsx:127-128) and all other rendering.
- Register.tsx, Navigation.tsx, Welcome.tsx, App.tsx, the colour constants and the backend configuration are not part of this model.
- A `null` display name in the profile editor's `name` state is not modelled; the name is always a string.

=== FILE: chat.dfy ===
/**
 * The chat screen between the signed-in user and one contact: the room id,
 * the check mark drawn under each message, sending a message, and marking
 * the messages that scroll into view as read.
 */
module Chat {
  import opened Js
  import opened Model
  import opened Backend

  // ---------------------------------------------------------------------------
  // Room identity: `[userId, contactId].sort().join('_')`
  // ---------------------------------------------------------------------------

  /**
   * The id of the room of two users: the two ids in the default sort order
   * of JS strings, joined by an underscore.
   */
  function RoomId(a: Uid, b: Uid): (r: JsString)
    ensures Less(a, b) ==> r == a + [Underscore] + b
    ensures Less(b, a) ==> r == b + [Underscore] + a
    ensures a == b ==> r == a + [Underscore] + a
  {
    LessAsymmetric(a, b);
    LessIrreflexive(a);
    if Less(b, a) then b + [Underscore] + a else a + [Underscore] + b
  }

  /** Both participants compute the same room id. */
  lemma RoomIdSymmetric(a: Uid, b: Uid)
    ensures RoomId(a, b) == RoomId(b, a)
  {
    if a != b { LessTotal(a, b); }
  }

  /** The room id starts with the smaller id (in JS string order) and ends with the larger one. */
  lemma RoomIdOrdered(a: Uid, b: Uid)
    ensures exists lo, hi :: RoomId(a, b) == lo + [Underscore] + hi && {lo, hi} == {a, b} && !Less(hi, lo)
  {
    if Less(a, b) {
      LessAsymmetric(a, b);
      assert RoomId(a, b) == a + [Underscore] + b && {a, b} == {a, b} && !Less(b, a);
    } else if Less(b, a) {
      LessAsymmetric(a, b);
      assert RoomId(a, b) == b + [Underscore] + a && {b, a} == {a, b} && !Less(a, b);
    } else {
      assert a == b by { if a != b { LessTotal(a, b); } }
      LessIrreflexive(a);
      assert RoomId(a, b) == a + [Underscore] + a && {a, a} == {a, b} && !Less(a, a);
    }
  }

  predicate NoUnderscore(s: JsString) {
    forall i | 0 <= i < |s| :: s[i] != Underscore
  }

  /** Splitting at the first underscore recovers both halves when the first has none. */
  lemma SplitAtUnderscore(x: JsString, y: JsString, x': JsString, y': JsString)
    requires NoUnderscore(x) && NoUnderscore(x')
    requires x + [Underscore] + y == x' + [Underscore] + y'
    ensures x == x' && y == y'
  {
    var s := x + [Underscore] + y;
    assert s[|x|] == Underscore && forall i | 0 <= i < |x| :: s[i] == x[i];
    assert s[|x'|] == Underscore && forall i | 0 <= i < |x'| :: s[i] == x'[i];
    assert |x| == |x'|;
    assert x == s[..|x|] == x';
    assert y == s[|x| + 1..] == y';
  }

  /**
   * When user ids contain no underscore, a room id names exactly one
   * unordered pair of users, so each message belongs to one conversation.
   */
  lemma RoomIdDeterminesPair(a: Uid, b: Uid, c: Uid, d: Uid)
    requires NoUnderscore(a) && NoUnderscore(b) && NoUnderscore(c) && NoUnderscore(d)
    requires RoomId(a, b) == RoomId(c, d)
    ensures {a, b} == {c, d}
  {
    RoomIdOrdered(a, b);
    RoomIdOrdered(c, d);
    var lo, hi :| RoomId(a, b) == lo + [Underscore] + hi && {lo, hi} == {a, b} && !Less(hi, lo);
    var lo', hi' :| RoomId(c, d) == lo' + [Underscore] + hi' && {lo', hi'} == {c, d} && !Less(hi', lo');
    assert lo in {a, b} && lo' in {c, d};
    SplitAtUnderscore(lo, hi, lo', hi');
  }

  /** The room of "alice" and "bob" is "alice_bob", whoever opens it. */
  lemma RoomIdExample()
    ensures var alice: JsString, bob: JsString := [0x61, 0x6C, 0x69, 0x63, 0x65], [0x62, 0x6F, 0x62];
            && RoomId(alice, bob) == [0x61, 0x6C, 0x69, 0x63, 0x65, 0x5F, 0x62, 0x6F, 0x62]
            && RoomId(bob, alice) == RoomId(alice, bob)
  {
    var alice: JsString, bob: JsString := [0x61, 0x6C, 0x69, 0x63, 0x65], [0x62, 0x6F, 0x62];
    assert Less(alice, bob);
    RoomIdSymmetric(alice, bob);
  }

  // ---------------------------------------------------------------------------
  // Check mark under a message
  // ---------------------------------------------------------------------------

  /** Own messages get a blue tick once read and a gray one before; received messages get none. */
  function MessageTick(m: Message, viewer: Uid): (r: Tick)
    ensures r != NoTick <==> m.senderId == viewer
    ensures r == BlueTick <==> m.senderId == viewer && m.read
  {
    if m.senderId == viewer then (if m.read then BlueTick else GrayTick) else NoTick
  }

  // ---------------------------------------------------------------------------
  // The three writes of a send, and the two summary writes of a read receipt
  // ---------------------------------------------------------------------------

  /**
   * The writes a send or a read receipt issues: the message collection (an
   * added message, or a batch of read flags), the contact's summary of the
   * user `users/{contact}/contacts/{me}`, and the user's own summary of the
   * contact `users/{me}/contacts/{contact}`.
   */
  datatype Write = MessagesWrite | ContactSideSummary | OwnSideSummary

  lemma SomeWriteIn(failing: set<Write>)
    ensures failing != {} <==> MessagesWrite in failing || ContactSideSummary in failing || OwnSideSummary in failing
  {
    if failing != {} {
      var w :| w in failing;
      assert w.MessagesWrite? || w.ContactSideSummary? || w.OwnSideSummary?;
    }
  }

  /** Whether a successful summary write of the conversation `me`/`contact` lands on `q`. */
  predicate SummaryWritten(q: Path, me: Uid, contact: Uid, failing: set<Write>) {
    || (q == Path(contact, me) && ContactSideSummary !in failing)
    || (q == Path(me, contact) && OwnSideSummary !in failing)
  }

  function WriteSummaries(db: Db, me: Uid, contact: Uid, p: Patch, failing: set<Write>): (r: Db)
    ensures r.auth == db.auth && r.users == db.users && r.chats == db.chats
    ensures r.contacts.Keys == db.contacts.Keys
    ensures forall q | q in db.contacts ::
      r.contacts[q] == if SummaryWritten(q, me, contact, failing) then Apply(p, db.contacts[q]) else db.contacts[q]
  {
    var db1 := TryUpdate(db, Path(contact, me), p, ContactSideSummary in failing);
    var r := TryUpdate(db1, Path(me, contact), p, OwnSideSummary in failing);
    r
  }

  // ---------------------------------------------------------------------------
  // sendMessage
  // ---------------------------------------------------------------------------

  /** A composer text counts as empty when it trims to the empty string. */
  predicate Blank(text: JsString) {
    Trim(text) == []
  }

  /**
   * The backend after `me` sends `text` to `contact` at server time `now`,
   * when the writes in `failing` are rejected: one message appended to the
   * room, and both last-message summaries overwritten, each write landing
   * on its own. A blank text writes nothing.
   */
  function Sent(db: Db, me: Uid, contact: Uid, text: JsString, now: nat, failing: set<Write>): (r: Db)
    ensures Blank(text) ==> r == db
    ensures !Blank(text) ==>
      Messages(r, RoomId(me, contact)) == Messages(db, RoomId(me, contact)) +
        (if MessagesWrite in failing then [] else [Message(me, contact, Trim(text), now, false)])
    ensures forall q | q != RoomId(me, contact) :: Messages(r, q) == Messages(db, q)
    ensures r.auth == db.auth && r.users == db.users && r.contacts.Keys == db.contacts.Keys
    ensures forall q | q in db.contacts ::
      r.contacts[q] ==
        if !Blank(text) && SummaryWritten(q, me, contact, failing) then
          db.contacts[q].(lastMessage := Trim(text), lastMessageTimestamp := Some(now),
                          lastMessageRead := Some(false), lastMessageSenderId := Some(me))
        else db.contacts[q]
  {
    if Blank(text) then db
    else
      var t := Trim(text);
      var db1 := if MessagesWrite in failing then db else AddMessage(db, RoomId(me, contact), Message(me, contact, t, now, false));
      WriteSummaries(db1, me, contact, LastMessagePatch(t, now, me), failing)
  }

  /** Whether a non-blank send reports an error: some write was rejected or hit a missing summary. */
  predicate SendFailed(db: Db, me: Uid, contact: Uid, text: JsString, failing: set<Write>) {
    !Blank(text) && (failing != {} || Path(contact, me) !in db.contacts || Path(me, contact) !in db.contacts)
  }

  // ---------------------------------------------------------------------------
  // Read receipts: `handleViewableItemsChanged`
  // ---------------------------------------------------------------------------

  /** A message on screen, as the last snapshot delivered it, with its document id. */
  datatype ViewableItem = ViewableItem(id: nat, item: Message)

  /** The messages a read receipt is due for: unread, and written by the other party. */
  predicate Qualifies(v: ViewableItem, viewer: Uid) {
    !v.item.read && v.item.senderId != viewer
  }

  function QualifyingIds(items: seq<ViewableItem>, viewer: Uid): (ids: set<nat>)
    ensures forall id :: id in ids <==> exists k | 0 <= k < |items| :: items[k].id == id && Qualifies(items[k], viewer)
  {
    set k | 0 <= k < |items| && Qualifies(items[k], viewer) :: items[k].id
  }

  /** Whether the batch of read flags commits: not rejected, and every message in it exists. */
  predicate BatchCommits(db: Db, room: JsString, ids: set<nat>, failing: set<Write>) {
    MessagesWrite !in failing && forall id | id in ids :: id < |Messages(db, room)|
  }

  /**
   * The backend after `viewer` sees `items` in the room with `contact`: the
   * qualifying messages flipped to read in one batch and, when there is at
   * least one, both summaries marked read.
   */
  function MarkedRead(db: Db, viewer: Uid, contact: Uid, items: seq<ViewableItem>, failing: set<Write>): (r: Db)
    ensures var room := RoomId(viewer, contact);
            var ids := QualifyingIds(items, viewer);
            && |Messages(r, room)| == |Messages(db, room)|
            && (forall i | 0 <= i < |Messages(db, room)| ::
                  Messages(r, room)[i] ==
                    if i in ids && BatchCommits(db, room, ids, failing) then Messages(db, room)[i].(read := true)
                    else Messages(db, room)[i])
    ensures forall q | q != RoomId(viewer, contact) :: Messages(r, q) == Messages(db, q)
    ensures r.auth == db.auth && r.users == db.users && r.contacts.Keys == db.contacts.Keys
    ensures r.chats.Keys == db.chats.Keys
    ensures forall q | q in db.contacts ::
      r.contacts[q] ==
        if QualifyingIds(items, viewer) != {} && SummaryWritten(q, viewer, contact, failing) then
          db.contacts[q].(lastMessageRead := Some(true))
        else db.contacts[q]
  {
    var room := RoomId(viewer, contact);
    var ids := QualifyingIds(items, viewer);
    var db1 := if ids == {} then db else WriteSummaries(db, viewer, contact, ReadPatch, failing);
    assert Messages(db1, room) == Messages(db, room);
    if BatchCommits(db1, room, ids, failing) then MarkMessagesRead(db1, room, ids) else db1
  }

  /** The visible items are the current documents of the room, as a fresh snapshot shows them. */
  predicate Accurate(items: seq<ViewableItem>, db: Db, room: JsString) {
    forall k | 0 <= k < |items| :: items[k].id < |Messages(db, room)| && items[k].item == Messages(db, room)[items[k].id]
  }

  /** Whether message `i` of the room is on screen. */
  predicate Visible(items: seq<ViewableItem>, i: nat) {
    exists k | 0 <= k < |items| :: items[k].id == i
  }

  /**
   * With a fresh snapshot and a batch that is not rejected, exactly the
   * visible unread messages of the other party become read; every other
   * message keeps every field.
   */
  lemma MarkedReadFlipsExactly(db: Db, viewer: Uid, contact: Uid, items: seq<ViewableItem>, failing: set<Write>)
    requires Accurate(items, db, RoomId(viewer, contact))
    requires MessagesWrite !in failing
    ensures var room := RoomId(viewer, contact);
            var before, after := Messages(db, room), Messages(MarkedRead(db, viewer, contact, items, failing), room);
            && |after| == |before|
            && forall i | 0 <= i < |before| ::
                 after[i] == if Visible(items, i) && !before[i].read && before[i].senderId != viewer
                             then before[i].(read := true) else before[i]
  {
    var room := RoomId(viewer, contact);
    var ids := QualifyingIds(items, viewer);
    var before := Messages(db, room);
    assert BatchCommits(db, room, ids, failing) by {
      forall id | id in ids ensures id < |before| {
        var k :| 0 <= k < |items| && items[k].id == id && Qualifies(items[k], viewer);
      }
    }
    forall i | 0 <= i < |before|
      ensures i in ids <==> Visible(items, i) && !before[i].read && before[i].senderId != viewer
    {
      if Visible(items, i) && !before[i].read && before[i].senderId != viewer {
        var k :| 0 <= k < |items| && items[k].id == i;
        assert Qualifies(items[k], viewer);
      }
    }
  }

  /** When no visible message is due for a receipt, nothing at all is written. */
  lemma NothingDueNothingWritten(db: Db, viewer: Uid, contact: Uid, items: seq<ViewableItem>, failing: set<Write>)
    requires forall k | 0 <= k < |items| :: !Qualifies(items[k], viewer)
    ensures MarkedRead(db, viewer, contact, items, failing) == db
  {
    assert QualifyingIds(items, viewer) == {};
  }

  /** Running the receipts twice over the same visible items gives the same backend as running them once. */
  lemma MarkedReadIdempotent(db: Db, viewer: Uid, contact: Uid, items: seq<ViewableItem>, failing: set<Write>)
    ensures var once := MarkedRead(db, viewer, contact, items, failing);
            MarkedRead(once, viewer, contact, items, failing) == once
  {
    var once := MarkedRead(db, viewer, contact, items, failing);
    var twice := MarkedRead(once, viewer, contact, items, failing);
    MarkedReadMessagesSettle(db, viewer, contact, items, failing);
    MarkedReadContactsSettle(db, viewer, contact, items, failing);
    SameRoomsSameChats(twice, once);
  }

  /** A second pass of the receipts flips no further read flag. */
  lemma MarkedReadMessagesSettle(db: Db, viewer: Uid, contact: Uid, items: seq<ViewableItem>, failing: set<Write>)
    ensures var once := MarkedRead(db, viewer, contact, items, failing);
            forall q :: Messages(MarkedRead(once, viewer, contact, items, failing), q) == Messages(once, q)
  {
    var room := RoomId(viewer, contact);
    var ids := QualifyingIds(items, viewer);
    var once := MarkedRead(db, viewer, contact, items, failing);
    var twice := MarkedRead(once, viewer, contact, items, failing);
    assert BatchCommits(once, room, ids, failing) == BatchCommits(db, room, ids, failing);
    forall q ensures Messages(twice, q) == Messages(once, q) {
      if q == room {
        assert Messages(twice, room) == Messages(once, room);
      }
    }
  }

  /** A second pass of the receipts leaves every contact document as the first left it. */
  lemma MarkedReadContactsSettle(db: Db, viewer: Uid, contact: Uid, items: seq<ViewableItem>, failing: set<Write>)
    ensures var once := MarkedRead(db, viewer, contact, items, failing);
            MarkedRead(once, viewer, contact, items, failing).contacts == once.contacts
  {
  }

  /** Two backends whose rooms hold the same messages have the same `chats`. */
  lemma SameRoomsSameChats(a: Db, b: Db)
    requires a.chats.Keys == b.chats.Keys
    requires forall q :: Messages(a, q) == Messages(b, q)
    ensures a.chats == b.chats
  {
    forall q | q in a.chats ensures a.chats[q] == b.chats[q] {
      assert Messages(a, q) == Messages(b, q);
    }
  }

  /** The visible items as the next snapshot delivers them, after the receipts of `db`. */
  function Refreshed(items: seq<ViewableItem>, db: Db, room: JsString): (r: seq<ViewableItem>)
    requires forall k | 0 <= k < |items| :: items[k].id < |Messages(db, room)|
    ensures Accurate(r, db, room)
  {
    seq(|items|, k requires 0 <= k < |items| => ViewableItem(items[k].id, Messages(db, room)[items[k].id]))
  }

  /**
   * Once the receipts have been committed, the next visibility event over the
   * same messages finds nothing due and writes nothing.
   */
  lemma ReceiptsSettle(db: Db, viewer: Uid, contact: Uid, items: seq<ViewableItem>, failing: set<Write>, failing': set<Write>)
    requires Accurate(items, db, RoomId(viewer, contact))
    requires MessagesWrite !in failing
    ensures var room := RoomId(viewer, contact);
            var once := MarkedRead(db, viewer, contact, items, failing);
            && (forall k | 0 <= k < |items| :: items[k].id < |Messages(once, room)|)
            && MarkedRead(once, viewer, contact, Refreshed(items, once, room), failing') == once
  {
    var room := RoomId(viewer, contact);
    var once := MarkedRead(db, viewer, contact, items, failing);
    MarkedReadFlipsExactly(db, viewer, contact, items, failing);
    var next := Refreshed(items, once, room);
    forall k | 0 <= k < |next| ensures !Qualifies(next[k], viewer) {
      assert Visible(items, items[k].id);
    }
    NothingDueNothingWritten(once, viewer, contact, next, failing');
  }

  // ---------------------------------------------------------------------------
  // The screen
  // ---------------------------------------------------------------------------

  class ChatScreen {
    const contactId: Uid
    /** The composer text. */
    var newMessage: JsString
    /** Set when a send starts and cleared when any send settles. */
    var sendingMessage: bool
    /**
     * The sends whose writes are still in flight, oldest first, each as
     * whether its writes will report an error. The keyboard's submit does
     * not check `sendingMessage`, so several sends can be in flight at once.
     */
    var inFlight: seq<bool>
    var alerts: seq<Alert>

    constructor (contactId: Uid)
      ensures this.contactId == contactId
      ensures newMessage == [] && !sendingMessage && inFlight == [] && alerts == []
    {
      this.contactId := contactId;
      newMessage := [];
      sendingMessage := false;
      inFlight := [];
      alerts := [];
    }

    /** `onChangeText` of the composer. */
    method ChangeText(text: JsString)
      modifies this
      ensures newMessage == text
      ensures sendingMessage == old(sendingMessage) && inFlight == old(inFlight) && alerts == old(alerts)
    {
      newMessage := text;
    }

    /**
     * `sendMessage` up to its `await`: a blank composer does nothing;
     * otherwise the three writes are issued, the composer is cleared and the
     * send joins those in flight until `SendSettled`.
     */
    method SendMessage(store: Store, now: nat, failing: set<Write>)
      requires store.auth.Some?
      modifies this, store
      ensures Sends(old(store.State()), store.State(), old(newMessage), newMessage, old(sendingMessage), sendingMessage, old(inFlight), inFlight, now, failing)
      ensures alerts == old(alerts)
    {
      if Blank(newMessage) {
        return;
      }
      sendingMessage := true;
      var failed := IssueSend(store, store.auth.value.uid, contactId, newMessage, now, failing);
      newMessage := [];
      inFlight := inFlight + [failed];
    }

    /**
     * `sendMessage` after its `await`, for the in-flight send number `k`
     * (sends may settle in any order): it leaves the set in flight, with an
     * alert if one of its writes failed, and `sendingMessage` is cleared
     * even when other sends are still in flight. Each failed send, whatever
     * the order, accounts for exactly one alert: the alerts shown plus the
     * failures still in flight stay the same.
     */
    method SendSettled(k: nat)
      requires k < |inFlight|
      modifies this
      ensures inFlight == old(inFlight[..k] + inFlight[k + 1..])
      ensures !sendingMessage && newMessage == old(newMessage)
      ensures alerts == old(alerts) + if old(inFlight[k]) then [ErrorAlert] else []
      ensures |alerts| + multiset(inFlight)[true] == old(|alerts| + multiset(inFlight)[true])
    {
      assert inFlight == inFlight[..k] + [inFlight[k]] + inFlight[k + 1..];
      if inFlight[k] {
        alerts := alerts + [ErrorAlert];
      }
      sendingMessage := false;
      inFlight := inFlight[..k] + inFlight[k + 1..];
    }

    /** The send button: it starts no send while `sendingMessage` is set, and otherwise sends. */
    method PressSend(store: Store, now: nat, failing: set<Write>)
      requires store.auth.Some?
      modifies this, store
      ensures old(sendingMessage) ==>
        && store.State() == old(store.State())
        && newMessage == old(newMessage) && sendingMessage && inFlight == old(inFlight)
      ensures !old(sendingMessage) ==> Sends(old(store.State()), store.State(), old(newMessage), newMessage, old(sendingMessage), sendingMessage, old(inFlight), inFlight, now, failing)
      ensures alerts == old(alerts)
    {
      if !sendingMessage {
        SendMessage(store, now, failing);
      }
    }

    /**
     * `onSubmitEditing` of the composer: it sends without looking at
     * `sendingMessage`, so a send started from the keyboard can overlap one
     * still in flight.
     */
    method SubmitEditing(store: Store, now: nat, failing: set<Write>)
      requires store.auth.Some?
      modifies this, store
      ensures Sends(old(store.State()), store.State(), old(newMessage), newMessage, old(sendingMessage), sendingMessage, old(inFlight), inFlight, now, failing)
      ensures alerts == old(alerts)
    {
      SendMessage(store, now, failing);
    }

    /**
     * What `sendMessage` does to the backend and the screen, from the state
     * before (`db`, `text`, `sending`, `flight`) to the state after: the
     * backend is `Sent`; a blank text leaves the screen as it was; otherwise
     * the composer is cleared, `sendingMessage` is set and the send's outcome
     * joins those in flight.
     */
    ghost predicate Sends(db: Db, db': Db, text: JsString, text': JsString, sending: bool, sending': bool,
                          flight: seq<bool>, flight': seq<bool>, now: nat, failing: set<Write>)
      requires db.auth.Some?
    {
      var me := db.auth.value.uid;
      && db' == Sent(db, me, contactId, text, now, failing)
      && (Blank(text) ==> text' == text && sending' == sending && flight' == flight)
      && (!Blank(text) ==> text' == [] && sending' && flight' == flight + [SendFailed(db, me, contactId, text, failing)])
    }
  }

  /**
   * The three writes of `sendMessage` for a non-blank text, issued one after
   * the other; reports whether any of them failed.
   */
  method IssueSend(store: Store, me: Uid, contact: Uid, text: JsString, now: nat, failing: set<Write>) returns (failed: bool)
    requires !Blank(text)
    modifies store
    ensures store.State() == Sent(old(store.State()), me, contact, text, now, failing)
    ensures failed == SendFailed(old(store.State()), me, contact, text, failing)
  {
    var room := RoomId(me, contact);
    var t := Trim(text);
    var msg := Message(me, contact, t, now, false);
    var patch := LastMessagePatch(t, now, me);
    ghost var db0 := store.State();
    var messageOk := store.AddDoc(room, msg, MessagesWrite in failing);
    ghost var db1 := store.State();
    assert db1.contacts == db0.contacts;
    var contactOk := store.UpdateDoc(Path(contact, me), patch, ContactSideSummary in failing);
    assert store.State() == TryUpdate(db1, Path(contact, me), patch, ContactSideSummary in failing);
    var userOk := store.UpdateDoc(Path(me, contact), patch, OwnSideSummary in failing);
    assert store.State() == WriteSummaries(db1, me, contact, patch, failing);
    failed := !(messageOk && contactOk && userOk);
    SomeWriteIn(failing);
  }

  /**
   * `handleViewableItemsChanged`: every visible item due for a read receipt
   * joins one write batch and fires the two summary updates; the batch is
   * committed after the scan.
   */
  method HandleViewableItemsChanged(store: Store, contactId: Uid, items: seq<ViewableItem>, failing: set<Write>)
    requires store.auth.Some?
    modifies store
    ensures store.State() == MarkedRead(old(store.State()), old(store.auth.value.uid), contactId, items, failing)
  {
    var viewer := store.auth.value.uid;
    var room := RoomId(viewer, contactId);
    ghost var db0 := store.State();
    var ids: set<nat> := {};
    for k := 0 to |items|
      invariant ids == QualifyingIds(items[..k], viewer)
      invariant store.State() == if ids == {} then db0 else WriteSummaries(db0, viewer, contactId, ReadPatch, failing)
    {
      assert items[..k + 1] == items[..k] + [items[k]];
      if Qualifies(items[k], viewer) {
        MarkAsRead(store, viewer, contactId, failing, db0);
        ids := ids + {items[k].id};
      }
    }
    assert items[..|items|] == items;
    ghost var db1 := store.State();
    assert Messages(db1, room) == Messages(db0, room);
    var committed := store.CommitReadBatch(room, ids, MessagesWrite in failing);
  }

  /**
   * `markAsRead()`: both summaries of the conversation get `lastMessageRead:
   * true`; issuing it again after the first time rewrites the same values.
   */
  method MarkAsRead(store: Store, viewer: Uid, contactId: Uid, failing: set<Write>, ghost db0: Db)
    requires store.State() == db0 || store.State() == WriteSummaries(db0, viewer, contactId, ReadPatch, failing)
    modifies store
    ensures store.State() == WriteSummaries(db0, viewer, contactId, ReadPatch, failing)
  {
    ghost var before := store.State();
    var contactOk := store.UpdateDoc(Path(contactId, viewer), ReadPatch, ContactSideSummary in failing);
    ghost var middle := store.State();
    assert middle == TryUpdate(before, Path(contactId, viewer), ReadPatch, ContactSideSummary in failing);
    var userOk := store.UpdateDoc(Path(viewer, contactId), ReadPatch, OwnSideSummary in failing);
    assert store.State() == TryUpdate(middle, Path(viewer, contactId), ReadPatch, OwnSideSummary in failing);
    if before != db0 {
      ReadSummariesIdempotent(db0, viewer, contactId, failing);
    }
  }

  /** Marking the summaries read a second time rewrites the values already there. */
  lemma ReadSummariesIdempotent(db: Db, viewer: Uid, contact: Uid, failing: set<Write>)
    ensures var once := WriteSummaries(db, viewer, contact, ReadPatch, failing);
            WriteSummaries(once, viewer, contact, ReadPatch, failing) == once
  {
    var once := WriteSummaries(db, viewer, contact, ReadPatch, failing);
    assert WriteSummaries(once, viewer, contact, ReadPatch, failing).contacts == once.contacts;
  }
}

=== FILE: flow.dfy ===
/**
 * Properties that span the screens: what the home list and the chat show
 * after a send and after the other party's read receipts, and the
 * `KeyedByUid` invariant that every write of every screen keeps, which is
 * what lets the home list take a contact's `uid` field for its document id.
 */
module Flow {
  import opened Js
  import opened Model
  import opened Chat
  import opened Home
  import opened ProfileEdit
  import opened SearchAddContacts

  /**
   * After a send whose own summary write lands, the sender's home row for
   * the contact shows a gray tick; the receiver's row for the sender shows
   * none.
   */
  lemma SendShowsGrayTick(db: Db, me: Uid, contact: Uid, text: JsString, now: nat, failing: set<Write>)
    requires !Blank(text) && me != contact
    requires Path(me, contact) in db.contacts && Path(contact, me) in db.contacts
    requires OwnSideSummary !in failing && ContactSideSummary !in failing
    ensures var r := Sent(db, me, contact, text, now, failing);
            && SummaryTick(r.contacts[Path(me, contact)], me) == GrayTick
            && SummaryTick(r.contacts[Path(contact, me)], contact) == NoTick
            && r.contacts[Path(me, contact)].lastMessage == Trim(text)
  {
    assert SummaryWritten(Path(me, contact), me, contact, failing);
    assert SummaryWritten(Path(contact, me), me, contact, failing);
  }

  /**
   * When the receiver's receipts find something due and their write to the
   * sender's summary lands, the sender's home row turns blue.
   */
  lemma ReceiptTurnsRowBlue(db: Db, me: Uid, contact: Uid, items: seq<ViewableItem>, failing: set<Write>)
    requires Path(me, contact) in db.contacts && db.contacts[Path(me, contact)].lastMessageSenderId == Some(me)
    requires QualifyingIds(items, contact) != {} && ContactSideSummary !in failing
    ensures SummaryTick(MarkedRead(db, contact, me, items, failing).contacts[Path(me, contact)], me) == BlueTick
  {
    assert SummaryWritten(Path(me, contact), contact, me, failing);
  }

  /**
   * A sent message shows a gray tick to its sender; once it is on the
   * receiver's screen and their batch commits, it shows a blue one in the
   * same room, which both participants address by the same id.
   */
  lemma SentMessageTurnsBlue(db: Db, me: Uid, contact: Uid, text: JsString, now: nat, failing: set<Write>,
                             items: seq<ViewableItem>, failing': set<Write>)
    requires !Blank(text) && me != contact && MessagesWrite !in failing && MessagesWrite !in failing'
    requires var sent := Sent(db, me, contact, text, now, failing);
             && Accurate(items, sent, RoomId(contact, me))
             && exists k | 0 <= k < |items| :: items[k].id == |Messages(db, RoomId(me, contact))|
    ensures var room := RoomId(me, contact);
            var i := |Messages(db, room)|;
            var sent := Sent(db, me, contact, text, now, failing);
            var read := MarkedRead(sent, contact, me, items, failing');
            && i < |Messages(sent, room)| && i < |Messages(read, room)|
            && MessageTick(Messages(sent, room)[i], me) == GrayTick
            && MessageTick(Messages(read, room)[i], me) == BlueTick
  {
    var room := RoomId(me, contact);
    RoomIdSymmetric(me, contact);
    var i := |Messages(db, room)|;
    var sent := Sent(db, me, contact, text, now, failing);
    assert Messages(sent, room)[i] == Message(me, contact, Trim(text), now, false);
    MarkedReadFlipsExactly(sent, contact, me, items, failing');
    assert Visible(items, i);
  }

  // ---------------------------------------------------------------------------
  // KeyedByUid is kept by every write
  // ---------------------------------------------------------------------------

  lemma SentKeepsKeyedByUid(db: Db, me: Uid, contact: Uid, text: JsString, now: nat, failing: set<Write>)
    requires KeyedByUid(db)
    ensures KeyedByUid(Sent(db, me, contact, text, now, failing))
  {
    var r := Sent(db, me, contact, text, now, failing);
    forall p | p in r.contacts ensures r.contacts[p].uid == p.id {
      assert r.contacts[p].uid == db.contacts[p].uid;
    }
  }

  lemma MarkedReadKeepsKeyedByUid(db: Db, viewer: Uid, contact: Uid, items: seq<ViewableItem>, failing: set<Write>)
    requires KeyedByUid(db)
    ensures KeyedByUid(MarkedRead(db, viewer, contact, items, failing))
  {
    var r := MarkedRead(db, viewer, contact, items, failing);
    forall p | p in r.contacts ensures r.contacts[p].uid == p.id {
      assert r.contacts[p].uid == db.contacts[p].uid;
    }
  }

  lemma ProfileSavedKeepsKeyedByUid(db: Db, me: Uid, name: JsString, photo: Option<JsString>)
    requires KeyedByUid(db) && db.auth.Some? && me in db.users
    ensures KeyedByUid(ProfileSaved(db, me, name, photo))
  {
    RenamedKeepsKeyedByUid(db, me, name, photo);
  }
}

=== FILE: home.dfy ===
/**
 * The home screen: the signed-in user's contact summaries, most recent
 * conversation first, narrowed by a name search, each with its tick and
 * timestamp.
 */
module Home {
  import opened Js
  import opened Model

  // ---------------------------------------------------------------------------
  // Snapshot to contact list
  // ---------------------------------------------------------------------------

  /** A document of the `users/{me}/contacts` snapshot. */
  datatype ContactDoc = ContactDoc(id: Uid, data: Contact)

  /**
   * `{ uid: doc.id, ...doc.data() }`. Every contact document carries its own
   * `uid` field, and the spread puts the document's fields last, so the
   * field wins over the document id.
   */
  function Project(d: ContactDoc): Contact {
    d.data
  }

  function LoadContacts(docs: seq<ContactDoc>): (r: seq<Contact>)
    ensures |r| == |docs|
    ensures forall k | 0 <= k < |docs| :: r[k] == Project(docs[k])
  {
    seq(|docs|, k requires 0 <= k < |docs| => Project(docs[k]))
  }

  /** `docs` is a snapshot of the contacts of `owner`: each document once, with its current data. */
  predicate IsSnapshot(docs: seq<ContactDoc>, db: Db, owner: Uid) {
    && (forall k | 0 <= k < |docs| :: Path(owner, docs[k].id) in db.contacts && docs[k].data == db.contacts[Path(owner, docs[k].id)])
    && (forall j, k | 0 <= j < k < |docs| :: docs[j].id != docs[k].id)
    && (forall p | p in db.contacts && p.owner == owner :: exists k | 0 <= k < |docs| :: docs[k].id == p.id)
  }

  /** While every contact document is keyed by its `uid`, each projected contact carries its document id. */
  lemma ProjectedUidIsDocId(docs: seq<ContactDoc>, db: Db, owner: Uid)
    requires KeyedByUid(db) && IsSnapshot(docs, db, owner)
    ensures forall k | 0 <= k < |docs| :: LoadContacts(docs)[k].uid == docs[k].id
  {
    forall k | 0 <= k < |docs| ensures LoadContacts(docs)[k].uid == docs[k].id {
      assert Path(owner, docs[k].id) in db.contacts;
    }
  }

  // ---------------------------------------------------------------------------
  // Most recent first
  // ---------------------------------------------------------------------------

  /** The sort key: the last-message time, with a missing (or null) timestamp read as the epoch. */
  function Recency(c: Contact): nat {
    match c.lastMessageTimestamp
    case Some(t) => t
    case None => 0
  }

  predicate MostRecentFirst(cs: seq<Contact>) {
    forall i, j | 0 <= i < j < |cs| :: Recency(cs[i]) >= Recency(cs[j])
  }

  /** A contact at least as recent as the head of a sorted list can go in front of it. */
  lemma ConsSorted(x: Contact, s: seq<Contact>)
    requires MostRecentFirst(s)
    requires s != [] ==> Recency(x) >= Recency(s[0])
    ensures MostRecentFirst([x] + s)
  {
    var r := [x] + s;
    forall i, j | 0 <= i < j < |r| ensures Recency(r[i]) >= Recency(r[j]) {
      assert r[j] == s[j - 1];
      if i == 0 {
        assert Recency(s[0]) >= Recency(s[j - 1]);
      } else {
        assert r[i] == s[i - 1];
      }
    }
  }

  /** Inserts `c` into a list that is most recent first, ahead of the contacts that are not more recent. */
  function Insert(c: Contact, cs: seq<Contact>): (r: seq<Contact>)
    requires MostRecentFirst(cs)
    ensures MostRecentFirst(r)
    ensures multiset(r) == multiset(cs) + multiset{c}
    ensures |r| == |cs| + 1
    ensures r[0] == c || (cs != [] && r[0] == cs[0])
  {
    if cs == [] || Recency(cs[0]) <= Recency(c) then
      ConsSorted(c, cs);
      [c] + cs
    else
      assert cs == [cs[0]] + cs[1..];
      var rest := Insert(c, cs[1..]);
      assert Recency(cs[0]) >= Recency(rest[0]) by {
        if rest[0] != c { assert rest[0] == cs[1]; }
      }
      ConsSorted(cs[0], rest);
      [cs[0]] + rest
  }

  /** `contacts.sort((a, b) => timeB - timeA)`: the comparator puts the more recent contact first. */
  function SortByRecency(cs: seq<Contact>): (r: seq<Contact>)
    ensures MostRecentFirst(r)
    ensures multiset(r) == multiset(cs)
    ensures |r| == |cs|
  {
    if cs == [] then []
    else
      assert cs == [cs[0]] + cs[1..];
      Insert(cs[0], SortByRecency(cs[1..]))
  }

  /** Contacts without a timestamp come after every contact with a timestamp past the epoch. */
  lemma MissingTimestampsLast(cs: seq<Contact>, i: nat, j: nat)
    requires i < |SortByRecency(cs)| && j < |SortByRecency(cs)|
    requires SortByRecency(cs)[i].lastMessageTimestamp.None?
    requires SortByRecency(cs)[j].lastMessageTimestamp.Some? && SortByRecency(cs)[j].lastMessageTimestamp.value > 0
    ensures j < i
  {
  }

  // ---------------------------------------------------------------------------
  // Name search
  // ---------------------------------------------------------------------------

  /** `contact.name.toLowerCase().includes(searchTerm.toLowerCase())`. */
  predicate NameMatches(c: Contact, term: JsString) {
    Includes(Lower(c.name), Lower(term))
  }

  /** The match is a case-insensitive substring test. */
  lemma NameMatchesIsSubstring(c: Contact, term: JsString)
    ensures NameMatches(c, term) <==> Occurs(Lower(c.name), Lower(term))
  {
    IncludesIffOccurs(Lower(c.name), Lower(term));
  }

  /** Names and terms that differ only in ASCII case match alike. */
  lemma NameMatchesIgnoresCase(c: Contact, c': Contact, term: JsString, term': JsString)
    requires SameIgnoringCase(c.name, c'.name) && SameIgnoringCase(term, term')
    ensures NameMatches(c, term) == NameMatches(c', term')
  {
    LowerEqualIffSameIgnoringCase(c.name, c'.name);
    LowerEqualIffSameIgnoringCase(term, term');
  }

  /** `contacts.filter(...)`: keeps each matching contact, as often as it occurs, in its order. */
  function FilterByName(cs: seq<Contact>, term: JsString): (r: seq<Contact>)
    ensures forall c :: multiset(r)[c] == if NameMatches(c, term) then multiset(cs)[c] else 0
    ensures forall k | 0 <= k < |r| :: NameMatches(r[k], term)
    ensures |r| <= |cs|
  {
    if cs == [] then []
    else
      assert cs == [cs[0]] + cs[1..];
      var rest := FilterByName(cs[1..], term);
      if NameMatches(cs[0], term) then [cs[0]] + rest else rest
  }

  /** Filtering keeps the most-recent-first order of the sorted list. */
  lemma {:induction false} FilterKeepsOrder(cs: seq<Contact>, term: JsString)
    requires MostRecentFirst(cs)
    ensures MostRecentFirst(FilterByName(cs, term))
  {
    if cs != [] {
      var rest := FilterByName(cs[1..], term);
      FilterKeepsOrder(cs[1..], term);
      if rest != [] {
        assert multiset(rest)[rest[0]] > 0;
        assert rest[0] in cs[1..];
        var j :| 0 <= j < |cs[1..]| && cs[1..][j] == rest[0];
        assert cs[1 + j] == rest[0];
      }
      if NameMatches(cs[0], term) {
        ConsSorted(cs[0], rest);
      }
    }
  }

  /** A search term and any of its case variants select the same contacts, in the same order. */
  lemma {:induction false} FilterIgnoresTermCase(cs: seq<Contact>, term: JsString, term': JsString)
    requires SameIgnoringCase(term, term')
    ensures FilterByName(cs, term) == FilterByName(cs, term')
  {
    if cs != [] {
      NameMatchesIgnoresCase(cs[0], cs[0], term, term');
      FilterIgnoresTermCase(cs[1..], term, term');
    }
  }

  /** An empty search term keeps every contact, in order. */
  lemma {:induction false} EmptyTermKeepsAll(cs: seq<Contact>)
    ensures FilterByName(cs, []) == cs
  {
    if cs != [] {
      IncludesEmpty(Lower(cs[0].name));
      EmptyTermKeepsAll(cs[1..]);
    }
  }

  /** The list the screen shows: the snapshot, most recent first, narrowed by the search term. */
  function ShownContacts(docs: seq<ContactDoc>, term: JsString): (r: seq<Contact>)
    ensures MostRecentFirst(r)
    ensures forall c :: multiset(r)[c] == if NameMatches(c, term) then multiset(LoadContacts(docs))[c] else 0
  {
    var sorted := SortByRecency(LoadContacts(docs));
    FilterKeepsOrder(sorted, term);
    FilterByName(sorted, term)
  }

  // ---------------------------------------------------------------------------
  // One row of the list
  // ---------------------------------------------------------------------------

  /**
   * The tick next to a summary: only when the signed-in user wrote the last
   * message, blue once it has been read and gray before.
   */
  function SummaryTick(c: Contact, me: Uid): (t: Tick)
    ensures t != NoTick <==> c.lastMessageSenderId == Some(me)
    ensures t == BlueTick <==> c.lastMessageSenderId == Some(me) && c.lastMessageRead == Some(true)
  {
    if c.lastMessageSenderId == Some(me) then
      (if c.lastMessageRead == Some(true) then BlueTick else GrayTick)
    else NoTick
  }

  /** What a row shows besides the photo: name, last message, tick and (only when present) the time. */
  datatype Row = Row(name: JsString, lastMessage: JsString, tick: Tick, time: Option<nat>)

  function RowOf(c: Contact, me: Uid): (r: Row)
    ensures r.time.Some? <==> c.lastMessageTimestamp.Some?
    ensures r.tick == SummaryTick(c, me)
  {
    Row(c.name, c.lastMessage, SummaryTick(c, me), c.lastMessageTimestamp)
  }
}

=== FILE: js.dfy ===
/**
 * JavaScript strings and the few string operations the chat screens use:
 * `trim`, ASCII-only `toLowerCase`, `includes`, and the `<` comparison that
 * the default `Array.prototype.sort` applies to strings.
 *
 * A JavaScript string is a sequence of UTF-16 code units, and string order is
 * code-unit order, so strings are modelled as `seq<CodeUnit>` rather than as
 * Dafny's `string` (whose characters are Unicode scalar values).
 */
module Js {

  newtype CodeUnit = x: int | 0 <= x < 0x1_0000

  type JsString = seq<CodeUnit>

  /** The code unit of `_`, the separator of room ids. */
  const Underscore: CodeUnit := 0x5F

  /** Converts a Dafny string literal made of ASCII characters to a JS string. */
  function Ascii(s: string): (r: JsString)
    requires forall i | 0 <= i < |s| :: s[i] < 128 as char
    ensures |r| == |s|
    ensures forall i | 0 <= i < |s| :: r[i] as int == s[i] as int
  {
    if s == [] then [] else [s[0] as int as CodeUnit] + Ascii(s[1..])
  }

  // ---------------------------------------------------------------------------
  // String.prototype.trim
  // ---------------------------------------------------------------------------

  /**
   * The ECMAScript WhiteSpace and LineTerminator code units, which `trim`
   * removes: TAB, LF, VT, FF, CR, SPACE, NBSP, ZWNBSP, LS, PS and every
   * member of the Unicode category Zs.
   */
  predicate IsWhiteSpace(c: CodeUnit) {
    || 0x09 <= c <= 0x0D
    || c == 0x20 || c == 0xA0 || c == 0x1680
    || 0x2000 <= c <= 0x200A
    || c == 0x2028 || c == 0x2029 || c == 0x202F || c == 0x205F
    || c == 0x3000 || c == 0xFEFF
  }

  predicate AllWhiteSpace(s: JsString) {
    forall i | 0 <= i < |s| :: IsWhiteSpace(s[i])
  }

  /** White space followed by white space is white space. */
  lemma AllWhiteSpaceConcat(a: JsString, b: JsString)
    requires AllWhiteSpace(a) && AllWhiteSpace(b)
    ensures AllWhiteSpace(a + b)
  {
    forall i | 0 <= i < |a + b| ensures IsWhiteSpace((a + b)[i]) {
      if i < |a| {
        assert (a + b)[i] == a[i];
      } else {
        assert (a + b)[i] == b[i - |a|];
      }
    }
  }

  /** Number of leading white-space code units of `s`. */
  function LeadingSpace(s: JsString): (n: nat)
    ensures n <= |s|
    ensures AllWhiteSpace(s[..n])
    ensures n < |s| ==> !IsWhiteSpace(s[n])
  {
    if s == [] || !IsWhiteSpace(s[0]) then 0
    else
      var n := 1 + LeadingSpace(s[1..]);
      AllWhiteSpaceConcat([s[0]], s[1..][..n - 1]);
      assert s[..n] == [s[0]] + s[1..][..n - 1];
      n
  }

  /** Number of trailing white-space code units of `s`. */
  function TrailingSpace(s: JsString): (n: nat)
    ensures n <= |s|
    ensures AllWhiteSpace(s[|s| - n..])
    ensures n < |s| ==> !IsWhiteSpace(s[|s| - 1 - n])
  {
    if s == [] || !IsWhiteSpace(s[|s| - 1]) then 0
    else
      var t := s[..|s| - 1];
      var m := TrailingSpace(t);
      AllWhiteSpaceConcat(t[|t| - m..], [s[|s| - 1]]);
      assert s[|s| - 1 - m..] == t[|t| - m..] + [s[|s| - 1]];
      assert m + 1 < |s| ==> s[|s| - 2 - m] == t[|t| - 1 - m];
      m + 1
  }

  /** `s.trim()`: `s` without its leading and trailing white space. */
  function Trim(s: JsString): (r: JsString)
    ensures exists i, j :: 0 <= i <= j <= |s| && r == s[i..j] && AllWhiteSpace(s[..i]) && AllWhiteSpace(s[j..])
    ensures r != [] ==> !IsWhiteSpace(r[0]) && !IsWhiteSpace(r[|r| - 1])
  {
    var i := LeadingSpace(s);
    var t := s[i..];
    var k := TrailingSpace(t);
    var j := |s| - k;
    assert t[|t| - k..] == s[j..];
    assert i < j ==> t[|t| - 1 - k] == s[j - 1];
    assert AllWhiteSpace(s[..i]) && AllWhiteSpace(s[j..]);
    s[i..j]
  }

  /** `!s.trim()`: the trimmed string is empty exactly when `s` is all white space. */
  lemma TrimEmptyIffBlank(s: JsString)
    ensures Trim(s) == [] <==> AllWhiteSpace(s)
  {
    var i := LeadingSpace(s);
    var t := s[i..];
    var k := TrailingSpace(t);
    assert Trim(s) == s[i..|s| - k];
    if i < |s| {
      assert t[0] == s[i];
      assert k < |t|;
    } else {
      assert s[..i] == s;
    }
  }

  // ---------------------------------------------------------------------------
  // String.prototype.toLowerCase, restricted to ASCII letters
  // ---------------------------------------------------------------------------

  /** `A` to `Z`. */
  predicate IsUpper(c: CodeUnit) {
    0x41 <= c <= 0x5A
  }

  function LowerUnit(c: CodeUnit): (r: CodeUnit)
    ensures IsUpper(c) ==> r == c + 0x20
    ensures !IsUpper(c) ==> r == c
  {
    if IsUpper(c) then c + 0x20 else c
  }

  function Lower(s: JsString): (r: JsString)
    ensures |r| == |s|
    ensures forall i | 0 <= i < |s| :: r[i] == LowerUnit(s[i])
  {
    seq(|s|, i requires 0 <= i < |s| => LowerUnit(s[i]))
  }

  /**
   * `a` and `b` differ at most in the case of ASCII letters: at each
   * position the two units are equal, or one is a capital and the other
   * its small letter.
   */
  predicate SameIgnoringCase(a: JsString, b: JsString) {
    && |a| == |b|
    && forall i | 0 <= i < |a| ::
         || a[i] == b[i]
         || (IsUpper(a[i]) && b[i] as int == a[i] as int + 0x20)
         || (IsUpper(b[i]) && a[i] as int == b[i] as int + 0x20)
  }

  /** Two strings lower to the same string exactly when they differ only in ASCII case. */
  lemma LowerEqualIffSameIgnoringCase(a: JsString, b: JsString)
    ensures Lower(a) == Lower(b) <==> SameIgnoringCase(a, b)
  {
    if Lower(a) == Lower(b) {
      forall i | 0 <= i < |a|
        ensures || a[i] == b[i]
                || (IsUpper(a[i]) && b[i] as int == a[i] as int + 0x20)
                || (IsUpper(b[i]) && a[i] as int == b[i] as int + 0x20)
      {
        assert LowerUnit(a[i]) == Lower(a)[i] == Lower(b)[i] == LowerUnit(b[i]);
      }
    }
    if SameIgnoringCase(a, b) {
      forall i | 0 <= i < |a| ensures Lower(a)[i] == Lower(b)[i] {
        assert LowerUnit(a[i]) == LowerUnit(b[i]);
      }
    }
  }

  /** Lowering leaves no capital letter. */
  lemma LowerHasNoUpper(s: JsString)
    ensures forall i | 0 <= i < |s| :: !IsUpper(Lower(s)[i])
  {
  }

  /** Lowering a lowered string changes nothing. */
  lemma LowerIdempotent(s: JsString)
    ensures Lower(Lower(s)) == Lower(s)
  {
    LowerHasNoUpper(s);
  }

  /** A string and its lowered form differ only in ASCII case. */
  lemma LowerSameIgnoringCase(s: JsString)
    ensures SameIgnoringCase(s, Lower(s))
  {
    LowerIdempotent(s);
    LowerEqualIffSameIgnoringCase(s, Lower(s));
  }

  // ---------------------------------------------------------------------------
  // String.prototype.includes
  // ---------------------------------------------------------------------------

  predicate IsPrefix(t: JsString, s: JsString) {
    |t| <= |s| && s[..|t|] == t
  }

  /** `s.includes(t)`, as the left-to-right search the engine performs. */
  function Includes(s: JsString, t: JsString): bool
    decreases |s|
  {
    IsPrefix(t, s) || (s != [] && Includes(s[1..], t))
  }

  /** `t` occurs in `s` starting at position `i`. */
  ghost predicate OccursAt(s: JsString, t: JsString, i: int) {
    0 <= i && i + |t| <= |s| && s[i..i + |t|] == t
  }

  /** `t` occurs in `s` at some position. */
  ghost predicate Occurs(s: JsString, t: JsString) {
    exists i :: OccursAt(s, t, i)
  }

  /** Dropping the first code unit shifts every position by one. */
  lemma SliceOfTail(s: JsString, i: nat, n: nat)
    requires i + n < |s|
    ensures s[1..][i..i + n] == s[i + 1..i + 1 + n]
  {
    var a, b := s[1..][i..i + n], s[i + 1..i + 1 + n];
    assert forall k | 0 <= k < n :: a[k] == b[k];
  }

  /** The search finds `t` exactly when `t` occurs somewhere in `s`. */
  lemma {:induction false} IncludesIffOccurs(s: JsString, t: JsString)
    ensures Includes(s, t) <==> Occurs(s, t)
    decreases |s|
  {
    if IsPrefix(t, s) {
      assert OccursAt(s, t, 0);
    } else if s != [] {
      IncludesIffOccurs(s[1..], t);
      if Occurs(s[1..], t) {
        var i :| OccursAt(s[1..], t, i);
        SliceOfTail(s, i, |t|);
        assert OccursAt(s, t, i + 1);
      }
      if Occurs(s, t) {
        var i :| OccursAt(s, t, i);
        assert i != 0;
        SliceOfTail(s, i - 1, |t|);
        assert OccursAt(s[1..], t, i - 1);
      }
    }
  }

  /** Every string includes the empty string. */
  lemma IncludesEmpty(s: JsString)
    ensures Includes(s, [])
  {
  }

  // ---------------------------------------------------------------------------
  // String comparison (`<` on strings, used by the default sort)
  // ---------------------------------------------------------------------------

  /** `a < b` on JS strings: lexicographic order on code units, a proper prefix first. */
  function Less(a: JsString, b: JsString): bool
    decreases |a|
  {
    if a == [] then b != []
    else if b == [] then false
    else if a[0] != b[0] then a[0] < b[0]
    else Less(a[1..], b[1..])
  }

  lemma {:induction false} LessIrreflexive(a: JsString)
    ensures !Less(a, a)
    decreases |a|
  {
    if a != [] { LessIrreflexive(a[1..]); }
  }

  lemma {:induction false} LessAsymmetric(a: JsString, b: JsString)
    ensures !(Less(a, b) && Less(b, a))
    decreases |a|
  {
    if a != [] && b != [] && a[0] == b[0] { LessAsymmetric(a[1..], b[1..]); }
  }

  lemma {:induction false} LessTotal(a: JsString, b: JsString)
    requires a != b
    ensures Less(a, b) || Less(b, a)
    decreases |a|
  {
    if a != [] && b != [] && a[0] == b[0] {
      assert a == [a[0]] + a[1..] && b == [b[0]] + b[1..];
      LessTotal(a[1..], b[1..]);
    }
  }

  lemma {:induction false} LessTransitive(a: JsString, b: JsString, c: JsString)
    requires Less(a, b) && Less(b, c)
    ensures Less(a, c)
    decreases |a|
  {
    if a != [] && a[0] == b[0] && b[0] == c[0] {
      LessTransitive(a[1..], b[1..], c[1..]);
    }
  }
}

=== FILE: model.dfy ===
/**
 * The documents the chat client reads and writes, and the backend state as a
 * value: the signed-in account of the authentication service, the `users`
 * collection, every `users/{owner}/contacts/{id}` contact summary and every
 * `chats/{roomId}/messages` collection.
 *
 * Each kind of document write the screens issue is a function from one
 * backend value to the next.
 */
module Model {
  import opened Js

  datatype Option<+T> = None | Some(value: T)

  type Uid = JsString

  /** The signed-in user as the authentication service reports it. */
  datatype Account = Account(uid: Uid, email: JsString, displayName: Option<JsString>, photoURL: Option<JsString>)

  /** A `users/{uid}` document. */
  datatype UserDoc = UserDoc(uid: Uid, email: JsString, name: JsString, photoURL: Option<JsString>)

  /**
   * A `users/{owner}/contacts/{id}` document: a copy of the counterpart's
   * profile plus a summary of the last message between the two. Fields that a
   * write may leave absent (or set to `null`) are options.
   */
  datatype Contact = Contact(
    uid: Uid,
    email: JsString,
    name: JsString,
    photoURL: Option<JsString>,
    lastMessage: JsString,
    lastMessageTimestamp: Option<nat>,
    lastMessageRead: Option<bool>,
    lastMessageSenderId: Option<Uid>)

  /** The location of a contact document: `users/{owner}/contacts/{id}`. */
  datatype Path = Path(owner: Uid, id: Uid)

  /** A document of `chats/{roomId}/messages`; its id is its position in the room. */
  datatype Message = Message(senderId: Uid, receiverId: Uid, text: JsString, timestamp: nat, read: bool)

  /** The whole backend state. */
  datatype Db = Db(
    auth: Option<Account>,
    users: map<Uid, UserDoc>,
    contacts: map<Path, Contact>,
    chats: map<JsString, seq<Message>>)

  /** The alerts a screen shows. */
  datatype Alert = SuccessAlert | ErrorAlert | InfoAlert

  /** The double check mark drawn next to a message or a last-message summary. */
  datatype Tick = NoTick | GrayTick | BlueTick

  /** The messages of a room; a room nobody has written to is empty. */
  function Messages(db: Db, room: JsString): seq<Message> {
    if room in db.chats then db.chats[room] else []
  }

  /** Every contact document's `uid` field names the document it is stored under. */
  predicate KeyedByUid(db: Db) {
    forall p | p in db.contacts :: db.contacts[p].uid == p.id
  }

  // ---------------------------------------------------------------------------
  // Partial updates of a contact document (`updateDoc`)
  // ---------------------------------------------------------------------------

  /** The three field sets that `updateDoc` writes into a contact document. */
  datatype Patch =
    | LastMessagePatch(text: JsString, timestamp: nat, senderId: Uid)
    | ReadPatch
    | ProfilePatch(name: JsString, photoURL: Option<JsString>)

  /** Merges a patch into a contact document; the fields it does not name keep their values. */
  function Apply(p: Patch, c: Contact): (r: Contact)
    ensures r.uid == c.uid && r.email == c.email
    ensures p.LastMessagePatch? ==> r == c.(lastMessage := p.text, lastMessageTimestamp := Some(p.timestamp),
                                            lastMessageRead := Some(false), lastMessageSenderId := Some(p.senderId))
    ensures p.ReadPatch? ==> r == c.(lastMessageRead := Some(true))
    ensures p.ProfilePatch? ==> r == c.(name := p.name, photoURL := p.photoURL)
  {
    match p
    case LastMessagePatch(text, ts, sender) =>
      c.(lastMessage := text, lastMessageTimestamp := Some(ts), lastMessageRead := Some(false), lastMessageSenderId := Some(sender))
    case ReadPatch =>
      c.(lastMessageRead := Some(true))
    case ProfilePatch(name, photo) =>
      c.(name := name, photoURL := photo)
  }

  // ---------------------------------------------------------------------------
  // Document writes as functions on the backend state
  // ---------------------------------------------------------------------------

  /** `addDoc` to `chats/{room}/messages`. */
  function AddMessage(db: Db, room: JsString, m: Message): (r: Db)
    ensures Messages(r, room) == Messages(db, room) + [m]
    ensures forall q | q != room :: Messages(r, q) == Messages(db, q)
    ensures r.auth == db.auth && r.users == db.users && r.contacts == db.contacts
  {
    db.(chats := db.chats[room := Messages(db, room) + [m]])
  }

  /** `updateDoc` of an existing contact document. */
  function UpdateContact(db: Db, path: Path, p: Patch): (r: Db)
    requires path in db.contacts
    ensures r.contacts.Keys == db.contacts.Keys
    ensures r.contacts[path] == Apply(p, db.contacts[path])
    ensures forall q | q in db.contacts && q != path :: r.contacts[q] == db.contacts[q]
    ensures r.auth == db.auth && r.users == db.users && r.chats == db.chats
  {
    db.(contacts := db.contacts[path := Apply(p, db.contacts[path])])
  }

  /** `setDoc` of a contact document: creates it, or replaces every field of it. */
  function SetContact(db: Db, path: Path, c: Contact): (r: Db)
    ensures r.contacts.Keys == db.contacts.Keys + {path}
    ensures r.contacts[path] == c
    ensures forall q | q in db.contacts && q != path :: r.contacts[q] == db.contacts[q]
    ensures r.auth == db.auth && r.users == db.users && r.chats == db.chats
  {
    db.(contacts := db.contacts[path := c])
  }

  /** `updateDoc(users/{uid}, {name, photoURL})` of an existing user document. */
  function UpdateUser(db: Db, uid: Uid, name: JsString, photoURL: Option<JsString>): (r: Db)
    requires uid in db.users
    ensures r.users.Keys == db.users.Keys
    ensures r.users[uid] == db.users[uid].(name := name, photoURL := photoURL)
    ensures forall u | u in db.users && u != uid :: r.users[u] == db.users[u]
    ensures r.auth == db.auth && r.contacts == db.contacts && r.chats == db.chats
  {
    db.(users := db.users[uid := db.users[uid].(name := name, photoURL := photoURL)])
  }

  /** `updateProfile(currentUser, {displayName, photoURL})` at the authentication service. */
  function UpdateAccount(db: Db, name: JsString, photoURL: Option<JsString>): (r: Db)
    requires db.auth.Some?
    ensures r.auth == Some(db.auth.value.(displayName := Some(name), photoURL := photoURL))
    ensures r.users == db.users && r.contacts == db.contacts && r.chats == db.chats
  {
    db.(auth := Some(db.auth.value.(displayName := Some(name), photoURL := photoURL)))
  }

  /** A committed write batch of `{read: true}` updates on messages `ids` of `room`. */
  function MarkMessagesRead(db: Db, room: JsString, ids: set<nat>): (r: Db)
    requires forall id | id in ids :: id < |Messages(db, room)|
    ensures |Messages(r, room)| == |Messages(db, room)|
    ensures forall i | 0 <= i < |Messages(db, room)| ::
      Messages(r, room)[i] == if i in ids then Messages(db, room)[i].(read := true) else Messages(db, room)[i]
    ensures forall q | q != room :: Messages(r, q) == Messages(db, q)
    ensures r.auth == db.auth && r.users == db.users && r.contacts == db.contacts
    ensures r.chats.Keys == db.chats.Keys
  {
    var ms := Messages(db, room);
    if ids == {} then db
    else db.(chats := db.chats[room := seq(|ms|, i requires 0 <= i < |ms| => if i in ids then ms[i].(read := true) else ms[i])])
  }

  /** `updateDoc` of a contact document that fails when it is rejected or the document does not exist. */
  function TryUpdate(db: Db, path: Path, p: Patch, fails: bool): Db {
    if !fails && path in db.contacts then UpdateContact(db, path, p) else db
  }

  /** Writing the same patch twice leaves a contact document as writing it once. */
  lemma ApplyIdempotent(p: Patch, c: Contact)
    ensures Apply(p, Apply(p, c)) == Apply(p, c)
  {
  }

  /** Every kind of contact update keeps the `uid` field, so it keeps `KeyedByUid`. */
  lemma UpdateContactKeepsKeyedByUid(db: Db, path: Path, p: Patch)
    requires KeyedByUid(db) && path in db.contacts
    ensures KeyedByUid(UpdateContact(db, path, p))
  {
  }
}

=== FILE: profile_edit.dfy ===
/**
 * The profile editor: saving a new name and photo updates the account, the
 * user's own document, and every contact document in which another user
 * keeps a copy of this user's profile.
 */
module ProfileEdit {
  import opened Js
  import opened Model
  import opened Backend

  /** `photo && photo !== user.photoURL`: only a picked photo that is not the current one is uploaded. */
  predicate NeedsUpload(photo: Option<JsString>, current: Option<JsString>) {
    photo.Some? && photo.value != [] && photo != current
  }

  /** The photo URL that is saved: the download URL after an upload, otherwise the local `photo` value. */
  function SavedPhoto(photo: Option<JsString>, current: Option<JsString>, downloadURL: JsString): (r: Option<JsString>)
    ensures NeedsUpload(photo, current) ==> r == Some(downloadURL)
    ensures !NeedsUpload(photo, current) ==> r == photo
  {
    if NeedsUpload(photo, current) then Some(downloadURL) else photo
  }

  /** The number of remote calls the photo step makes: the upload, when there is one. */
  function UploadCalls(photo: Option<JsString>, current: Option<JsString>): (r: nat)
    ensures r <= 1 && (r == 1 <==> NeedsUpload(photo, current))
  {
    if NeedsUpload(photo, current) then 1 else 0
  }

  /** The failing call, if any, is not among the calls numbered `lo` up to `hi` (exclusive). */
  predicate NoFailureIn(fail: Option<nat>, lo: nat, hi: nat) {
    fail.None? || fail.value < lo || hi <= fail.value
  }

  /** Two adjacent runs of calls without the failure make one. */
  lemma NoFailureSplit(fail: Option<nat>, lo: nat, mid: nat, hi: nat)
    requires lo <= mid <= hi
    ensures NoFailureIn(fail, lo, hi) <==> NoFailureIn(fail, lo, mid) && NoFailureIn(fail, mid, hi)
  {
  }

  /** One more call that does not fail extends a run of calls without the failure. */
  lemma NoFailureStep(fail: Option<nat>, lo: nat, hi: nat)
    requires lo <= hi
    ensures NoFailureIn(fail, lo, hi + 1) <==> NoFailureIn(fail, lo, hi) && fail != Some(hi)
  {
  }

  /**
   * The contact documents the fan-out rewrites: those whose `uid` field is
   * `me`, in the contact list of a user who has a `users` document (the
   * scan lists the `users` collection and queries each one's contacts).
   */
  predicate Refers(db: Db, q: Path, me: Uid) {
    q in db.contacts && q.owner in db.users && db.contacts[q].uid == me
  }

  /** Every copy of `me`'s profile with the new name and photo; nothing else changes. */
  function Renamed(db: Db, me: Uid, name: JsString, photo: Option<JsString>): (r: Db)
    ensures r.auth == db.auth && r.users == db.users && r.chats == db.chats
    ensures r.contacts.Keys == db.contacts.Keys
    ensures forall q | Refers(db, q, me) ::
      r.contacts[q].name == name && r.contacts[q].photoURL == photo &&
      r.contacts[q].(name := db.contacts[q].name, photoURL := db.contacts[q].photoURL) == db.contacts[q]
    ensures forall q | q in db.contacts && !Refers(db, q, me) :: r.contacts[q] == db.contacts[q]
  {
    db.(contacts := map q | q in db.contacts ::
      if Refers(db, q, me) then Apply(ProfilePatch(name, photo), db.contacts[q]) else db.contacts[q])
  }

  /** With no copy of the profile anywhere, the fan-out writes nothing. */
  lemma NoCopiesNothingRenamed(db: Db, me: Uid, name: JsString, photo: Option<JsString>)
    requires forall q | q in db.contacts :: !Refers(db, q, me)
    ensures Renamed(db, me, name, photo) == db
  {
    assert Renamed(db, me, name, photo).contacts == db.contacts;
  }

  /** Saving the same profile twice is saving it once. */
  lemma RenamedIdempotent(db: Db, me: Uid, name: JsString, photo: Option<JsString>)
    ensures Renamed(Renamed(db, me, name, photo), me, name, photo) == Renamed(db, me, name, photo)
  {
    var once := Renamed(db, me, name, photo);
    var twice := Renamed(once, me, name, photo);
    assert forall q | q in db.contacts :: Refers(once, q, me) == Refers(db, q, me);
    assert twice.contacts == once.contacts;
  }

  /** The fan-out keeps every contact document keyed by its `uid`. */
  lemma RenamedKeepsKeyedByUid(db: Db, me: Uid, name: JsString, photo: Option<JsString>)
    requires KeyedByUid(db)
    ensures KeyedByUid(Renamed(db, me, name, photo))
  {
    var r := Renamed(db, me, name, photo);
    forall p | p in r.contacts ensures r.contacts[p].uid == p.id {
      assert r.contacts[p].uid == db.contacts[p].uid;
    }
  }

  /** The backend after a save that succeeds: account, user document and every copy updated. */
  function ProfileSaved(db: Db, me: Uid, name: JsString, photo: Option<JsString>): (r: Db)
    requires db.auth.Some? && me in db.users
    ensures r.auth == Some(db.auth.value.(displayName := Some(name), photoURL := photo))
    ensures r.users == db.users[me := db.users[me].(name := name, photoURL := photo)]
    ensures r.contacts == Renamed(db, me, name, photo).contacts && r.chats == db.chats
  {
    var db1 := UpdateUser(UpdateAccount(db, name, photo), me, name, photo);
    assert db1.users.Keys == db.users.Keys;
    assert forall q | q in db.contacts :: Refers(db1, q, me) == Refers(db, q, me);
    Renamed(db1, me, name, photo)
  }

  class ProfileEditScreen {
    var name: JsString
    var photo: Option<JsString>
    var updateLoading: bool
    var alerts: seq<Alert>

    constructor (name: JsString, photo: Option<JsString>)
      ensures this.name == name && this.photo == photo && !updateLoading && alerts == []
    {
      this.name := name;
      this.photo := photo;
      updateLoading := false;
      alerts := [];
    }

    /**
     * `updateProfileInfo`. The remote calls run one after another, numbered
     * from 0: the photo upload when `NeedsUpload` (`UploadCalls` of them),
     * the account update, the user document, the `users` listing, then per
     * user a contact query and one update per match. The call numbered
     * `fail`, if any, fails and nothing after it runs; the writes already
     * done stay, and one error alert is shown. `uploadedURL` is the download
     * URL the storage service hands out; `calls` is the number of remote
     * calls issued and `renamed` the copies the fan-out wrote, at most one
     * per successful call.
     */
    method UpdateProfileInfo(store: Store, uploadedURL: JsString, fail: Option<nat>)
      returns (saved: bool, calls: nat, ghost renamed: set<Path>)
      requires store.auth.Some?
      modifies this, store
      ensures var db := old(store.State());
              var me := db.auth.value.uid;
              var photoURL := SavedPhoto(old(photo), db.auth.value.photoURL, uploadedURL);
              var n := UploadCalls(old(photo), db.auth.value.photoURL);
              var accountSaved := NoFailureIn(fail, 0, n + 1);
              var userSaved := accountSaved && me in db.users && NoFailureIn(fail, 0, n + 2);
              var listed := userSaved && NoFailureIn(fail, 0, n + 3);
              && store.State().auth == (if accountSaved then UpdateAccount(db, name, photoURL).auth else db.auth)
              && store.State().users == (if userSaved then db.users[me := db.users[me].(name := name, photoURL := photoURL)] else db.users)
              && store.State().chats == db.chats
              && (!listed ==> store.State().contacts == db.contacts)
              && (listed ==>
                    var db1 := UpdateUser(UpdateAccount(db, name, photoURL), me, name, photoURL);
                    && PartlyRenamed(db1, store.State(), me, name, photoURL)
                    && renamed <= Copies(db1, me) && store.State() == RenamedAt(db1, name, photoURL, renamed)
                    && |renamed| + (if saved then 0 else 1) <= calls - (n + 3)
                    && (saved ==> calls == n + 3 + |db.users.Keys| + |Copies(db1, me)|)
                    && (!saved && calls == n + 4 ==> store.State().contacts == db.contacts))
              && (!saved ==> 0 < calls && (fail == Some(calls - 1) || (me !in db.users && calls == n + 2)))
              && (saved <==> listed && NoFailureIn(fail, 0, calls))
              && (saved ==> store.State() == ProfileSaved(db, me, name, photoURL))
      ensures alerts == old(alerts) + [if saved then SuccessAlert else ErrorAlert]
      ensures !updateLoading && name == old(name) && photo == old(photo)
    {
      updateLoading := true;
      var me := store.auth.value.uid;
      ghost var db0 := store.State();
      ghost var n := UploadCalls(photo, store.auth.value.photoURL);
      var ok, photoURL;
      ok, calls, photoURL := SaveOwnProfile(store, name, photo, uploadedURL, fail);
      renamed := {};
      if ok {
        ok, calls, renamed := FanOut(store, me, name, photoURL, fail, calls);
        NoFailureSplit(fail, 0, n + 3, calls);
        assert ok ==> store.State() == ProfileSaved(db0, me, name, photoURL);
      }
      saved := ok;
      alerts := alerts + [if saved then SuccessAlert else ErrorAlert];
      updateLoading := false;
    }
  }

  /**
   * The calls of `updateProfileInfo` before the fan-out, numbered 0 to
   * `n + 2` where `n` is `UploadCalls`: the photo upload when
   * `NeedsUpload`, the account update, the user document and the `users`
   * listing, each run only if every earlier one succeeded. `ok` says that
   * all of them did; `photoURL` is the photo to save.
   */
  method SaveOwnProfile(store: Store, name: JsString, photo: Option<JsString>, uploadedURL: JsString, fail: Option<nat>)
    returns (ok: bool, calls: nat, photoURL: Option<JsString>)
    requires store.auth.Some?
    modifies store
    ensures var db := old(store.State());
            var me := db.auth.value.uid;
            var target := SavedPhoto(photo, db.auth.value.photoURL, uploadedURL);
            var n := UploadCalls(photo, db.auth.value.photoURL);
            var accountSaved := NoFailureIn(fail, 0, n + 1);
            var userSaved := accountSaved && me in db.users && NoFailureIn(fail, 0, n + 2);
            && ok == (userSaved && NoFailureIn(fail, 0, n + 3))
            && (ok ==> calls == n + 3 && photoURL == target)
            && (!ok ==> 0 < calls && (fail == Some(calls - 1) || (me !in db.users && calls == n + 2)))
            && store.State() == (if userSaved then UpdateUser(UpdateAccount(db, name, target), me, name, target)
                                 else if accountSaved then UpdateAccount(db, name, target)
                                 else db)
  {
    var me := store.auth.value.uid;
    photoURL := photo;
    ghost var db0 := store.State();
    ghost var target := SavedPhoto(photo, store.auth.value.photoURL, uploadedURL);
    ghost var n := UploadCalls(photo, store.auth.value.photoURL);
    calls := 0;
    ok := true;
    if NeedsUpload(photo, store.auth.value.photoURL) {
      // fetch(photo), uploadBytes, getDownloadURL
      ok := fail != Some(calls);
      calls := calls + 1;
      if ok {
        photoURL := Some(uploadedURL);
      }
    }
    assert ok == NoFailureIn(fail, 0, n) && (ok ==> calls == n && photoURL == target);
    if ok {
      ok := store.UpdateProfile(name, photoURL, fail == Some(calls));
      calls := calls + 1;
    }
    assert ok == NoFailureIn(fail, 0, n + 1) && (ok ==> calls == n + 1);
    assert store.State() == if ok then UpdateAccount(db0, name, target) else db0;
    if ok {
      ok := store.UpdateUserDoc(me, name, photoURL, fail == Some(calls));
      calls := calls + 1;
    }
    assert ok == (NoFailureIn(fail, 0, n + 1) && me in db0.users && NoFailureIn(fail, 0, n + 2)) && (ok ==> calls == n + 2);
    if ok {
      // getDocs(collection(database, "users"))
      ok := fail != Some(calls);
      calls := calls + 1;
    }
  }

  /** The copies of `me`'s profile: the contact documents `Refers` picks. */
  function Copies(db: Db, me: Uid): (r: set<Path>)
    ensures forall q :: q in r <==> Refers(db, q, me)
  {
    set q | q in db.contacts && Refers(db, q, me)
  }

  /** The backend after the profile patch has been written to the contact documents in `done`. */
  function RenamedAt(db: Db, name: JsString, photo: Option<JsString>, done: set<Path>): (r: Db)
    ensures r.auth == db.auth && r.users == db.users && r.chats == db.chats
    ensures r.contacts.Keys == db.contacts.Keys
    ensures forall q | q in db.contacts :: r.contacts[q].uid == db.contacts[q].uid
  {
    db.(contacts := map q | q in db.contacts ::
      if q in done then Apply(ProfilePatch(name, photo), db.contacts[q]) else db.contacts[q])
  }

  /** With nothing written, the backend is as it was. */
  lemma RenamedAtNothing(db: Db, name: JsString, photo: Option<JsString>)
    ensures RenamedAt(db, name, photo, {}) == db
  {
    assert RenamedAt(db, name, photo, {}).contacts == db.contacts;
  }

  /** One more successful update moves one document into the written set. */
  lemma RenamedAtStep(db: Db, name: JsString, photo: Option<JsString>, done: set<Path>, q: Path)
    requires q in db.contacts && q !in done
    ensures q in RenamedAt(db, name, photo, done).contacts
    ensures UpdateContact(RenamedAt(db, name, photo, done), q, ProfilePatch(name, photo)) == RenamedAt(db, name, photo, done + {q})
  {
    var a := UpdateContact(RenamedAt(db, name, photo, done), q, ProfilePatch(name, photo));
    var b := RenamedAt(db, name, photo, done + {q});
    assert a.contacts == b.contacts;
  }

  /** Writing to every copy is the whole fan-out. */
  lemma RenamedAtAll(db: Db, me: Uid, name: JsString, photo: Option<JsString>)
    ensures RenamedAt(db, name, photo, Copies(db, me)) == Renamed(db, me, name, photo)
  {
    assert RenamedAt(db, name, photo, Copies(db, me)).contacts == Renamed(db, me, name, photo).contacts;
  }

  /** Writing to some of the copies leaves the backend partly renamed. */
  lemma RenamedAtPartly(db: Db, me: Uid, name: JsString, photo: Option<JsString>, done: set<Path>)
    requires done <= Copies(db, me)
    ensures PartlyRenamed(db, RenamedAt(db, name, photo, done), me, name, photo)
  {
  }

  /**
   * The nested loop over every user document and the copies of `me`'s
   * profile in its contacts, one update at a time; the call numbered `fail`
   * stops it.
   */
  method FanOut(store: Store, me: Uid, name: JsString, photo: Option<JsString>, fail: Option<nat>, calls0: nat)
    returns (ok: bool, calls: nat, ghost done: set<Path>)
    modifies store
    ensures PartlyRenamed(old(store.State()), store.State(), me, name, photo)
    ensures ok ==> store.State() == Renamed(old(store.State()), me, name, photo)
    ensures calls0 <= calls && ok == NoFailureIn(fail, calls0, calls)
    ensures !ok ==> fail == Some(calls - 1)
    ensures done <= Copies(old(store.State()), me) && store.State() == RenamedAt(old(store.State()), name, photo, done)
    ensures |done| + (if ok then 0 else 1) <= calls - calls0
    ensures ok ==> calls == calls0 + |old(store.State()).users.Keys| + |Copies(old(store.State()), me)|
    ensures !ok && calls == calls0 + 1 ==> store.State() == old(store.State())
  {
    ghost var db0 := store.State();
    done := {};
    RenamedAtNothing(db0, name, photo);
    var owners := store.users.Keys;
    ok, calls := true, calls0;
    assert (set q | q in Copies(db0, me) && q.owner !in owners) == {};
    assert db0.users.Keys - owners == {};
    while ok && owners != {}
      invariant RenamingOwners(store.State(), db0, me, name, photo, fail, owners, done, ok, calls0, calls)
      decreases owners, ok
    {
      ok, owners, done, calls := RenameOwnerCopies(store, me, name, photo, fail, db0, owners, done, calls0, calls);
    }
    OwnersVisited(store.State(), db0, me, name, photo, fail, owners, done, ok, calls0, calls);
  }

  /** When the outer loop stops, by a failure or with every owner visited, the fan-out's outcome. */
  lemma OwnersVisited(r: Db, db0: Db, me: Uid, name: JsString, photo: Option<JsString>, fail: Option<nat>,
                      owners: set<Uid>, done: set<Path>, ok: bool, calls0: nat, calls: nat)
    requires RenamingOwners(r, db0, me, name, photo, fail, owners, done, ok, calls0, calls)
    requires !ok || owners == {}
    ensures PartlyRenamed(db0, r, me, name, photo)
    ensures ok ==> r == Renamed(db0, me, name, photo)
    ensures ok ==> calls == calls0 + |db0.users.Keys| + |Copies(db0, me)|
    ensures !ok && calls == calls0 + 1 ==> r == db0
  {
    if ok {
      assert done == Copies(db0, me);
      assert db0.users.Keys - owners == db0.users.Keys;
      RenamedAtAll(db0, me, name, photo);
    } else if calls == calls0 + 1 {
      assert done == {};
      RenamedAtNothing(db0, name, photo);
    }
    RenamedAtPartly(db0, me, name, photo, done);
  }

  /**
   * The state of the outer loop: the copies under the owners already
   * visited have been written (all of them while no call has failed), at
   * most one per call since `calls0` that succeeded, and a failure, if any,
   * was the last call.
   */
  ghost predicate RenamingOwners(r: Db, db0: Db, me: Uid, name: JsString, photo: Option<JsString>, fail: Option<nat>,
                                 owners: set<Uid>, done: set<Path>, ok: bool, calls0: nat, calls: nat)
  {
    && owners <= db0.users.Keys
    && r == RenamedAt(db0, name, photo, done)
    && done <= Copies(db0, me)
    && (ok ==> done == set q | q in Copies(db0, me) && q.owner !in owners)
    && calls0 <= calls && ok == NoFailureIn(fail, calls0, calls)
    && (!ok ==> fail == Some(calls - 1))
    && |done| + (if ok then 0 else 1) <= calls - calls0
    && (ok ==> calls - calls0 == |db0.users.Keys - owners| + |done|)
  }

  /** One pass of the outer loop: the contact query of one owner, then the inner loop over its copies. */
  method RenameOwnerCopies(store: Store, me: Uid, name: JsString, photo: Option<JsString>, fail: Option<nat>, ghost db0: Db,
                           owners: set<Uid>, ghost done: set<Path>, ghost calls0: nat, calls: nat)
    returns (ok: bool, owners': set<Uid>, ghost done': set<Path>, calls': nat)
    requires owners != {}
    requires RenamingOwners(store.State(), db0, me, name, photo, fail, owners, done, true, calls0, calls)
    modifies store
    ensures RenamingOwners(store.State(), db0, me, name, photo, fail, owners', done', ok, calls0, calls')
    ensures owners' < owners
  {
    var u :| u in owners;
    // getDocs(query(users/{u}/contacts, where("uid", "==", me)))
    NoFailureStep(fail, calls0, calls);
    ok := fail != Some(calls);
    calls' := calls + 1;
    done' := done;
    owners' := owners - {u};
    if ok {
      ok, calls', done' := RenameCopiesIn(store, u, me, name, photo, fail, calls', db0, done);
      OwnerVisited(store.State(), db0, me, name, photo, fail, owners, u, done, done', ok, calls0, calls, calls');
    }
  }

  /** The outer loop's invariant after the query of `u` succeeded and the inner loop over its copies ran. */
  lemma OwnerVisited(r: Db, db0: Db, me: Uid, name: JsString, photo: Option<JsString>, fail: Option<nat>,
                     owners: set<Uid>, u: Uid, done: set<Path>, done': set<Path>, ok: bool, calls0: nat, calls: nat, calls': nat)
    requires u in owners
    requires RenamingOwners(RenamedAt(db0, name, photo, done), db0, me, name, photo, fail, owners, done, true, calls0, calls)
    requires fail != Some(calls)
    requires r == RenamedAt(db0, name, photo, done')
    requires done <= done' <= Copies(db0, me)
    requires ok ==> done' == done + set q | q in Copies(db0, me) && q.owner == u
    requires calls + 1 <= calls' && ok == NoFailureIn(fail, calls + 1, calls')
    requires !ok ==> fail == Some(calls' - 1)
    requires |done'| + (if ok then 0 else 1) <= |done| + calls' - (calls + 1)
    requires ok ==> |done'| == |done| + (calls' - (calls + 1))
    ensures RenamingOwners(r, db0, me, name, photo, fail, owners - {u}, done', ok, calls0, calls')
  {
    NoFailureStep(fail, calls0, calls);
    NoFailureSplit(fail, calls0, calls + 1, calls');
    VisitedGrows(db0.users.Keys, owners, u);
    if ok {
      assert done' == set q | q in Copies(db0, me) && q.owner !in owners - {u};
    }
  }

  /** Visiting one more owner adds one to the owners visited. */
  lemma VisitedGrows(all: set<Uid>, owners: set<Uid>, u: Uid)
    requires u in owners && owners <= all
    ensures |all - (owners - {u})| == |all - owners| + 1
  {
    assert all - (owners - {u}) == (all - owners) + {u};
  }

  /**
   * The inner loop of the fan-out: one `updateDoc` per copy of `me`'s
   * profile in the contacts of `owner`, stopped by the call numbered `fail`.
   * `done` is the set of documents the fan-out has written so far.
   */
  method RenameCopiesIn(store: Store, owner: Uid, me: Uid, name: JsString, photo: Option<JsString>, fail: Option<nat>, calls0: nat,
                        ghost db0: Db, ghost done0: set<Path>)
    returns (ok: bool, calls: nat, ghost done: set<Path>)
    requires owner in db0.users
    requires store.State() == RenamedAt(db0, name, photo, done0)
    requires done0 <= Copies(db0, me) && forall q | q in done0 :: q.owner != owner
    modifies store
    ensures store.State() == RenamedAt(db0, name, photo, done)
    ensures done0 <= done <= Copies(db0, me)
    ensures ok ==> done == done0 + set q | q in Copies(db0, me) && q.owner == owner
    ensures calls0 <= calls && ok == NoFailureIn(fail, calls0, calls)
    ensures !ok ==> fail == Some(calls - 1)
    ensures |done| + (if ok then 0 else 1) <= |done0| + calls - calls0
    ensures ok ==> |done| == |done0| + (calls - calls0)
  {
    ghost var mine := set q | q in Copies(db0, me) && q.owner == owner;
    var pending := QueryCopies(store, owner, me, name, photo, db0, done0);
    ok, calls, done := true, calls0, done0;
    assert done0 + (mine - pending) == done0;
    while ok && pending != {}
      invariant RenamingCopies(store.State(), db0, name, photo, fail, mine, pending, done0, done, ok, calls0, calls)
      decreases pending, ok
    {
      ok, pending, done, calls := RenameNextCopy(store, name, photo, fail, db0, mine, pending, done0, done, calls0, calls);
    }
    CopiesVisited(db0, me, mine, pending, done0, done, ok);
  }

  /** When the inner loop stops, by a failure or with no copy pending, the written set. */
  lemma CopiesVisited(db0: Db, me: Uid, mine: set<Path>, pending: set<Path>, done0: set<Path>, done: set<Path>, ok: bool)
    requires mine <= Copies(db0, me) && done0 <= Copies(db0, me)
    requires pending <= mine && done == done0 + (mine - pending)
    requires !ok || pending == {}
    ensures done0 <= done <= Copies(db0, me)
    ensures ok ==> done == done0 + mine
  {
  }

  /**
   * The state of the inner loop: the copies in `mine` that are no longer
   * `pending` have been written on top of `done0`, at most one per call
   * since `calls0` that succeeded, and a failure, if any, was the last call.
   */
  ghost predicate RenamingCopies(r: Db, db0: Db, name: JsString, photo: Option<JsString>, fail: Option<nat>,
                                 mine: set<Path>, pending: set<Path>, done0: set<Path>, done: set<Path>,
                                 ok: bool, calls0: nat, calls: nat)
  {
    && pending <= mine && mine <= db0.contacts.Keys && mine !! done0
    && r == RenamedAt(db0, name, photo, done)
    && done == done0 + (mine - pending)
    && calls0 <= calls && ok == NoFailureIn(fail, calls0, calls)
    && (!ok ==> fail == Some(calls - 1))
    && |done| + (if ok then 0 else 1) <= |done0| + calls - calls0
    && (ok ==> |done| == |done0| + (calls - calls0))
  }

  /** One pass of the inner loop: the `updateDoc` of one pending copy, which leaves the pending set once written. */
  method RenameNextCopy(store: Store, name: JsString, photo: Option<JsString>, fail: Option<nat>, ghost db0: Db,
                        ghost mine: set<Path>, pending: set<Path>, ghost done0: set<Path>, ghost done: set<Path>,
                        ghost calls0: nat, calls: nat)
    returns (ok: bool, pending': set<Path>, ghost done': set<Path>, calls': nat)
    requires pending != {}
    requires RenamingCopies(store.State(), db0, name, photo, fail, mine, pending, done0, done, true, calls0, calls)
    modifies store
    ensures RenamingCopies(store.State(), db0, name, photo, fail, mine, pending', done0, done', ok, calls0, calls')
    ensures if ok then pending' < pending else pending' == pending
  {
    var q :| q in pending;
    NoFailureStep(fail, calls0, calls);
    ok, done' := RenameCopy(store, q, name, photo, fail == Some(calls), db0, done);
    calls' := calls + 1;
    pending' := if ok then pending - {q} else pending;
  }

  /** `updateDoc(users/{owner}/contacts/{id}, {name, photoURL})` of one copy during the fan-out. */
  method RenameCopy(store: Store, q: Path, name: JsString, photo: Option<JsString>, fails: bool,
                    ghost db0: Db, ghost done0: set<Path>)
    returns (ok: bool, ghost done: set<Path>)
    requires q in db0.contacts && q !in done0
    requires store.State() == RenamedAt(db0, name, photo, done0)
    modifies store
    ensures ok == !fails
    ensures done == if ok then done0 + {q} else done0
    ensures |done| == |done0| + if ok then 1 else 0
    ensures store.State() == RenamedAt(db0, name, photo, done)
  {
    RenamedAtStep(db0, name, photo, done0, q);
    ok := store.UpdateDoc(q, ProfilePatch(name, photo), fails);
    done := if ok then done0 + {q} else done0;
  }

  /**
   * `getDocs(query(users/{owner}/contacts, where("uid", "==", me)))` during
   * the fan-out: the ids of that owner's copies of `me`'s profile.
   */
  method QueryCopies(store: Store, owner: Uid, me: Uid, name: JsString, photo: Option<JsString>, ghost db0: Db, ghost done: set<Path>)
    returns (found: set<Path>)
    requires owner in db0.users && store.State() == RenamedAt(db0, name, photo, done)
    ensures found == set q | q in Copies(db0, me) && q.owner == owner
  {
    found := set q | q in store.contacts && q.owner == owner && store.contacts[q].uid == me;
    QueryFindsCopies(db0, name, photo, done, owner, me);
  }

  /** The contact query of one owner, run while the fan-out is under way, finds exactly that owner's copies. */
  lemma QueryFindsCopies(db: Db, name: JsString, photo: Option<JsString>, done: set<Path>, owner: Uid, me: Uid)
    requires owner in db.users
    ensures var r := RenamedAt(db, name, photo, done);
            (set q | q in r.contacts && q.owner == owner && r.contacts[q].uid == me) == set q | q in Copies(db, me) && q.owner == owner
  {
  }

  /** Some copies renamed, the rest of the backend as in `db`. */
  ghost predicate PartlyRenamed(db: Db, r: Db, me: Uid, name: JsString, photo: Option<JsString>) {
    && r.auth == db.auth && r.users == db.users && r.chats == db.chats
    && r.contacts.Keys == db.contacts.Keys
    && forall q | q in db.contacts ::
         r.contacts[q] == db.contacts[q] || (Refers(db, q, me) && r.contacts[q] == Renamed(db, me, name, photo).contacts[q])
  }
}

=== FILE: search_add_contacts.dfy ===
/**
 * The contact search screen: a name query against the user search index,
 * one "already a contact" flag for the whole result set, and the pair of
 * contact documents written when a result is added.
 */
module SearchAddContacts {
  import opened Js
  import opened Model
  import opened Backend
  import opened Home

  /** A record the search index returns for a query. */
  datatype Hit = Hit(uid: Uid, email: JsString, name: JsString, photoURL: Option<JsString>)

  /** `auth.currentUser?.uid` is truthy: someone is signed in, with a non-empty uid. */
  predicate SignedIn(db: Db) {
    db.auth.Some? && db.auth.value.uid != []
  }

  // ---------------------------------------------------------------------------
  // The "already a contact" flag
  // ---------------------------------------------------------------------------

  /** `users.some(user => user.uid === uid)`. */
  function SomeHitHas(hits: seq<Hit>, uid: Uid): (r: bool)
    ensures r <==> exists j | 0 <= j < |hits| :: hits[j].uid == uid
  {
    if hits == [] then false
    else if hits[0].uid == uid then true
    else
      var r := SomeHitHas(hits[1..], uid);
      assert forall j | 1 <= j < |hits| :: hits[j] == hits[1..][j - 1];
      r
  }

  /** `contacts.some(contact => users.some(user => user.uid === contact.uid))`. */
  function AnyHitIsContact(contacts: seq<Contact>, hits: seq<Hit>): (r: bool)
    ensures r <==> exists i, j | 0 <= i < |contacts| && 0 <= j < |hits| :: contacts[i].uid == hits[j].uid
  {
    if contacts == [] then false
    else if SomeHitHas(hits, contacts[0].uid) then true
    else
      var r := AnyHitIsContact(contacts[1..], hits);
      assert forall i | 1 <= i < |contacts| :: contacts[i] == contacts[1..][i - 1];
      r
  }

  /** The flag covers the whole result set: one known hit marks every hit as already added. */
  lemma OneKnownHitFlagsAll(contacts: seq<Contact>, hits: seq<Hit>, extra: seq<Hit>)
    requires AnyHitIsContact(contacts, hits)
    ensures AnyHitIsContact(contacts, hits + extra) && AnyHitIsContact(contacts, extra + hits)
  {
    var i, j :| 0 <= i < |contacts| && 0 <= j < |hits| && contacts[i].uid == hits[j].uid;
    assert (hits + extra)[j] == hits[j];
    assert (extra + hits)[|extra| + j] == hits[j];
  }

  // ---------------------------------------------------------------------------
  // The result list
  // ---------------------------------------------------------------------------

  /** `searchedUsers.map(user => user.uid === me ? nothing : card)`: the hits shown, in order. */
  function ShownHits(hits: seq<Hit>, me: Uid): (r: seq<Hit>)
    ensures forall k | 0 <= k < |r| :: r[k].uid != me
    ensures forall h :: multiset(r)[h] == if h.uid == me then 0 else multiset(hits)[h]
  {
    if hits == [] then []
    else
      assert hits == [hits[0]] + hits[1..];
      var rest := ShownHits(hits[1..], me);
      if hits[0].uid == me then rest else [hits[0]] + rest
  }

  /** With the signed-in user absent from the hits, every hit is shown in the order returned. */
  lemma {:induction false} ShownHitsWithoutSelf(hits: seq<Hit>, me: Uid)
    requires forall k | 0 <= k < |hits| :: hits[k].uid != me
    ensures ShownHits(hits, me) == hits
  {
    if hits != [] {
      ShownHitsWithoutSelf(hits[1..], me);
    }
  }

  // ---------------------------------------------------------------------------
  // The two contact documents of an add
  // ---------------------------------------------------------------------------

  /** `value || ''`. */
  function OrEmpty(o: Option<JsString>): JsString {
    if o.Some? then o.value else []
  }

  /** `users/{me}/contacts/{hit.uid}` as `addContact` writes it: the hit's profile and an empty summary. */
  function ForwardRecord(hit: Hit): (c: Contact)
    ensures c.uid == hit.uid && c.email == hit.email && c.name == hit.name
    ensures c.photoURL == Some(OrEmpty(hit.photoURL))
    ensures c.lastMessage == [] && c.lastMessageTimestamp.None?
    ensures c.lastMessageRead.None? && c.lastMessageSenderId.None?
  {
    Contact(hit.uid, hit.email, hit.name, Some(OrEmpty(hit.photoURL)), [], None, None, None)
  }

  /** `displayName || 'Unknown'`. */
  function NameOrUnknown(displayName: Option<JsString>): (r: JsString)
    ensures displayName.Some? && displayName.value != [] ==> r == displayName.value
    ensures displayName.None? || displayName.value == [] ==> r == Ascii("Unknown")
  {
    if displayName.Some? && displayName.value != [] then displayName.value else Ascii("Unknown")
  }

  /** `users/{hit.uid}/contacts/{me}` as `addContact` writes it: the signed-in user's profile and an empty summary. */
  function ReverseRecord(a: Account): (c: Contact)
    ensures c.uid == a.uid && c.email == a.email && c.name == NameOrUnknown(a.displayName)
    ensures c.photoURL == Some(OrEmpty(a.photoURL))
    ensures c.lastMessage == [] && c.lastMessageTimestamp.None?
    ensures c.lastMessageRead.None? && c.lastMessageSenderId.None?
  {
    Contact(a.uid, a.email, NameOrUnknown(a.displayName), Some(OrEmpty(a.photoURL)), [], None, None, None)
  }

  /**
   * The backend after `addContact(hit)`: nothing without a signed-in user,
   * otherwise the forward record unless its write fails, then the reverse
   * record unless the forward write or its own write fails.
   */
  function ContactAdded(db: Db, hit: Hit, forwardFails: bool, reverseFails: bool): (r: Db)
    ensures !SignedIn(db) || forwardFails ==> r == db
    ensures r.auth == db.auth && r.users == db.users && r.chats == db.chats
  {
    if !SignedIn(db) || forwardFails then db
    else
      var me := db.auth.value.uid;
      var db1 := SetContact(db, Path(me, hit.uid), ForwardRecord(hit));
      if reverseFails then db1 else SetContact(db1, Path(hit.uid, me), ReverseRecord(db.auth.value))
  }

  /**
   * A completed add leaves the pair of records pointing at each other, and
   * changes no other document.
   */
  lemma AddedPair(db: Db, hit: Hit)
    requires SignedIn(db) && hit.uid != db.auth.value.uid
    ensures var me := db.auth.value.uid;
            var r := ContactAdded(db, hit, false, false);
            && r.contacts.Keys == db.contacts.Keys + {Path(me, hit.uid), Path(hit.uid, me)}
            && r.contacts[Path(me, hit.uid)] == ForwardRecord(hit)
            && r.contacts[Path(hit.uid, me)] == ReverseRecord(db.auth.value)
            && r.contacts[Path(me, hit.uid)].uid == hit.uid && r.contacts[Path(hit.uid, me)].uid == me
            && (forall q | q in db.contacts && q != Path(me, hit.uid) && q != Path(hit.uid, me) :: r.contacts[q] == db.contacts[q])
            && r.auth == db.auth && r.users == db.users && r.chats == db.chats
  {
    var me := db.auth.value.uid;
    assert Path(me, hit.uid) != Path(hit.uid, me);
  }

  /** An add whose reverse write fails leaves only the forward record written. */
  lemma ForwardOnly(db: Db, hit: Hit)
    requires SignedIn(db)
    ensures var me := db.auth.value.uid;
            var r := ContactAdded(db, hit, false, true);
            && r.contacts.Keys == db.contacts.Keys + {Path(me, hit.uid)}
            && r.contacts[Path(me, hit.uid)] == ForwardRecord(hit)
            && (forall q | q in db.contacts && q != Path(me, hit.uid) :: r.contacts[q] == db.contacts[q])
  {
  }

  /** Adding the same user again writes the same two records: the second add changes nothing. */
  lemma AddIdempotent(db: Db, hit: Hit)
    ensures ContactAdded(ContactAdded(db, hit, false, false), hit, false, false) == ContactAdded(db, hit, false, false)
  {
    var once := ContactAdded(db, hit, false, false);
    if SignedIn(db) {
      assert ContactAdded(once, hit, false, false).contacts == once.contacts;
    }
  }

  /** Both records are keyed by their `uid` field, so an add keeps `KeyedByUid`. */
  lemma AddKeepsKeyedByUid(db: Db, hit: Hit, forwardFails: bool, reverseFails: bool)
    requires KeyedByUid(db)
    ensures KeyedByUid(ContactAdded(db, hit, forwardFails, reverseFails))
  {
    if SignedIn(db) && !forwardFails {
      var me := db.auth.value.uid;
      var db1 := SetContact(db, Path(me, hit.uid), ForwardRecord(hit));
      assert KeyedByUid(db1);
    }
  }

  /**
   * Once the forward record is written, the signed-in user's next contact
   * snapshot makes the same hits count as already added.
   */
  lemma AddedThenAlreadyContact(db: Db, hit: Hit, reverseFails: bool, hits: seq<Hit>, docs: seq<ContactDoc>)
    requires SignedIn(db) && hit in hits
    requires IsSnapshot(docs, ContactAdded(db, hit, false, reverseFails), db.auth.value.uid)
    ensures AnyHitIsContact(LoadContacts(docs), hits)
  {
    var me := db.auth.value.uid;
    var r := ContactAdded(db, hit, false, reverseFails);
    var p := Path(me, hit.uid);
    assert p in r.contacts && r.contacts[p].uid == hit.uid by {
      if !reverseFails && Path(hit.uid, me) == p {
        assert r.contacts[p] == ReverseRecord(db.auth.value);
      }
    }
    var k :| 0 <= k < |docs| && docs[k].id == p.id;
    assert Path(me, docs[k].id) == p;
    var j :| 0 <= j < |hits| && hits[j] == hit;
    assert LoadContacts(docs)[k].uid == hits[j].uid;
  }

  // ---------------------------------------------------------------------------
  // The screen
  // ---------------------------------------------------------------------------

  class SearchAddContactsScreen {
    var contacts: seq<Contact>
    var searchName: JsString
    var searchedUsers: seq<Hit>
    var alreadyContact: bool
    var areResults: bool
    var isAddLoading: bool
    var alerts: seq<Alert>

    constructor ()
      ensures contacts == [] && searchName == [] && searchedUsers == []
      ensures !alreadyContact && !areResults && !isAddLoading && alerts == []
    {
      contacts := [];
      searchName := [];
      searchedUsers := [];
      alreadyContact := false;
      areResults := false;
      isAddLoading := false;
      alerts := [];
    }

    /** The contacts listener: `{ uid: doc.id, ...doc.data() }` for each document of the snapshot. */
    method ContactsChanged(docs: seq<ContactDoc>)
      modifies this
      ensures contacts == LoadContacts(docs)
      ensures searchName == old(searchName) && searchedUsers == old(searchedUsers) && alreadyContact == old(alreadyContact)
      ensures areResults == old(areResults) && isAddLoading == old(isAddLoading) && alerts == old(alerts)
    {
      contacts := LoadContacts(docs);
    }

    /** `onChangeText` of the search field. */
    method ChangeSearchName(text: JsString)
      modifies this
      ensures searchName == text
      ensures contacts == old(contacts) && searchedUsers == old(searchedUsers) && alreadyContact == old(alreadyContact)
      ensures areResults == old(areResults) && isAddLoading == old(isAddLoading) && alerts == old(alerts)
    {
      searchName := text;
    }

    /**
     * `handleSearchUsers`. `response` is what the search index answers for
     * `searchName`: the hits, or `None` when the request fails.
     */
    method HandleSearchUsers(store: Store, response: Option<seq<Hit>>)
      modifies this
      ensures contacts == old(contacts) && searchName == old(searchName)
      ensures isAddLoading == old(isAddLoading) && alerts == old(alerts)
      ensures !SignedIn(store.State()) || old(searchName) == [] ==>
        searchedUsers == old(searchedUsers) && alreadyContact == old(alreadyContact) && areResults == old(areResults)
      ensures SignedIn(store.State()) && old(searchName) != [] && response.None? ==>
        searchedUsers == old(searchedUsers) && alreadyContact == old(alreadyContact) && !areResults
      ensures SignedIn(store.State()) && old(searchName) != [] && response.Some? ==>
        searchedUsers == response.value && alreadyContact == AnyHitIsContact(contacts, response.value) && areResults
    {
      if !SignedIn(store.State()) || searchName == [] {
        return;
      }
      match response
      case None =>
        areResults := false;
      case Some(hits) =>
        searchedUsers := hits;
        alreadyContact := AnyHitIsContact(contacts, hits);
        areResults := true;
    }

    /**
     * `addContact(hit)`. The two `setDoc` calls run one after the other; a
     * failure alerts and skips the rest, and (as written) leaves
     * `isAddLoading` set, as does the missing-user path.
     */
    method AddContact(store: Store, hit: Hit, forwardFails: bool, reverseFails: bool)
      modifies this, store
      ensures store.State() == ContactAdded(old(store.State()), hit, forwardFails, reverseFails)
      ensures var added := SignedIn(old(store.State())) && !forwardFails && !reverseFails;
              && isAddLoading == !added
              && alreadyContact == (added || old(alreadyContact))
              && alerts == old(alerts) + (if added then [] else [ErrorAlert])
      ensures contacts == old(contacts) && searchName == old(searchName) && searchedUsers == old(searchedUsers)
      ensures areResults == old(areResults)
    {
      isAddLoading := true;
      if !SignedIn(store.State()) {
        alerts := alerts + [ErrorAlert];
        return;
      }
      var account := store.auth.value;
      var me := account.uid;
      var ok := store.SetDoc(Path(me, hit.uid), ForwardRecord(hit), forwardFails);
      if ok {
        ok := store.SetDoc(Path(hit.uid, me), ReverseRecord(account), reverseFails);
      }
      if ok {
        isAddLoading := false;
        alreadyContact := true;
      } else {
        alerts := alerts + [ErrorAlert];
      }
    }

    /** The add button of a result card: with the flag set it only informs, and writes nothing. */
    method PressAdd(store: Store, hit: Hit, forwardFails: bool, reverseFails: bool)
      modifies this, store
      ensures old(alreadyContact) ==> store.State() == old(store.State()) && alerts == old(alerts) + [InfoAlert]
      ensures old(alreadyContact) ==> isAddLoading == old(isAddLoading) && alreadyContact
      ensures !old(alreadyContact) ==> store.State() == ContactAdded(old(store.State()), hit, forwardFails, reverseFails)
      ensures !old(alreadyContact) ==>
        var added := SignedIn(old(store.State())) && !forwardFails && !reverseFails;
        && isAddLoading == !added
        && alreadyContact == added
        && alerts == old(alerts) + (if added then [] else [ErrorAlert])
      ensures contacts == old(contacts) && searchName == old(searchName) && searchedUsers == old(searchedUsers)
      ensures areResults == old(areResults)
    {
      if alreadyContact {
        alerts := alerts + [InfoAlert];
      } else {
        AddContact(store, hit, forwardFails, reverseFails);
      }
    }
  }
}

=== FILE: store.dfy ===
/**
 * The backend as one mutable object: the authentication service's current
 * user and the document store's collections are fields, and each SDK call
 * the screens make is a method that changes those fields exactly as the
 * corresponding function of module Model says, or changes nothing when the
 * call fails.
 *
 * Whether a remote call fails for a reason outside the client (network,
 * permissions) is a `fails` parameter. A failure the client causes itself,
 * such as `updateDoc` on a document that does not exist, follows from the
 * state.
 */
module Backend {
  import opened Js
  import opened Model

  class Store {
    var auth: Option<Account>
    var users: map<Uid, UserDoc>
    var contacts: map<Path, Contact>
    var chats: map<JsString, seq<Message>>

    /** The backend state as a value. */
    function State(): Db
      reads this
    {
      Db(auth, users, contacts, chats)
    }

    constructor (db: Db)
      ensures State() == db
    {
      auth := db.auth;
      users := db.users;
      contacts := db.contacts;
      chats := db.chats;
    }

    /** `addDoc(collection(chats/{room}/messages), m)`. */
    method AddDoc(room: JsString, m: Message, fails: bool) returns (ok: bool)
      modifies this
      ensures ok == !fails
      ensures State() == if ok then AddMessage(old(State()), room, m) else old(State())
    {
      ok := !fails;
      if ok {
        chats := chats[room := Messages(State(), room) + [m]];
      }
    }

    /** `updateDoc(users/{path.owner}/contacts/{path.id}, patch)`; rejected when the document does not exist. */
    method UpdateDoc(path: Path, p: Patch, fails: bool) returns (ok: bool)
      modifies this
      ensures ok == (!fails && path in old(contacts))
      ensures State() == if ok then UpdateContact(old(State()), path, p) else old(State())
    {
      ok := !fails && path in contacts;
      if ok {
        contacts := contacts[path := Apply(p, contacts[path])];
      }
    }

    /** `setDoc(users/{path.owner}/contacts/{path.id}, c)`. */
    method SetDoc(path: Path, c: Contact, fails: bool) returns (ok: bool)
      modifies this
      ensures ok == !fails
      ensures State() == if ok then SetContact(old(State()), path, c) else old(State())
    {
      ok := !fails;
      if ok {
        contacts := contacts[path := c];
      }
    }

    /** `updateDoc(users/{uid}, {name, photoURL})`; rejected when the document does not exist. */
    method UpdateUserDoc(uid: Uid, name: JsString, photoURL: Option<JsString>, fails: bool) returns (ok: bool)
      modifies this
      ensures ok == (!fails && uid in old(users))
      ensures State() == if ok then UpdateUser(old(State()), uid, name, photoURL) else old(State())
    {
      ok := !fails && uid in users;
      if ok {
        users := users[uid := users[uid].(name := name, photoURL := photoURL)];
      }
    }

    /** `updateProfile(auth.currentUser, {displayName, photoURL})`. */
    method UpdateProfile(name: JsString, photoURL: Option<JsString>, fails: bool) returns (ok: bool)
      requires auth.Some?
      modifies this
      ensures ok == !fails
      ensures State() == if ok then UpdateAccount(old(State()), name, photoURL) else old(State())
    {
      ok := !fails;
      if ok {
        auth := Some(auth.value.(displayName := Some(name), photoURL := photoURL));
      }
    }

    /**
     * `batch.commit()` of `{read: true}` updates on the messages `ids` of
     * `room`; the whole batch is rejected when one of them does not exist.
     */
    method CommitReadBatch(room: JsString, ids: set<nat>, fails: bool) returns (ok: bool)
      modifies this
      ensures ok == (!fails && forall id | id in ids :: id < |Messages(old(State()), room)|)
      ensures State() == if ok then MarkMessagesRead(old(State()), room, ids) else old(State())
    {
      ok := !fails && forall id | id in ids :: id < |Messages(State(), room)|;
      if ok {
        var db := MarkMessagesRead(State(), room, ids);
        chats := db.chats;
      }
    }
  }
}
